=== FILE: README.md ===
# Monthly sales summary with gain rules — a Dafny model

The program reads two inputs. The first is a plain-text **gain list**. Each line names a product, then, after a run of two or more blanks, lists comma-separated rules `quantity:gain`. The second is a **sales CSV** with one sale per row: product, quantity, price, date (`YYYY-MM-DD`) and an optional recorded profit.

For every data row, the program:
- cleans the price;
- derives a `YYYY-MM` month key;
- resolves the row's profit through a fallback chain: the recorded profit, then 0 for a zero price, then the product's rule for the truncated quantity, then 0;
- adds the price and the profit to two per-month accumulators.

It then walks the months in ascending key order and sums them into two grand totals.

This project models that core:
- `parse_gains_list`;
- `analyze_sales` up to and including the grand-totals loop;
- the entry point that runs the analysis only when the gain list was read.

It proves what the model does. The two loops of `parse_gains_list` and the two loops of `analyze_sales` are methods with loop invariants. Each is proved against a fold over the input: `GainsOf`, `ByMonth`, `Total` and `SumOver`.

Modules:
- `PyText` (`py_text.dfy`) models the Python string operations the code relies on: `str.strip`, `str.split`, `str.replace(c, '')`, `re.sub(r'[^\d.]', '', s)` and `re.split(r'\s{2,}', s, 1)`.
- `PyNumbers` (`py_numbers.dfy`) models `int()`, `float()` on plain decimals, `str()` of an integer, `int()` of a float (truncation toward zero) and `f"{m:02d}"`.
- `StringOrder` (`string_order.dfy`) models Python's ordering of `str` and `sorted()` over the month keys.
- `Gains` (`gains.dfy`) models the gain-list parser.
- `Sales` (`sales.dfy`) models the row rules, the two accumulators, the totals loop and the entry point.
- `GainsExamples` and `SalesExamples` hold worked examples on concrete lines and cells.

### Behaviour worth noting
- Dates are split on `-`, with the year in the first part and the month in the second. They are not month/day/year.
- Any non-empty cleaned profit cell is the profit, even `"0"`.
- The right-hand side of a rule is evaluated before the product's entry is touched. So a product whose rules are all malformed, or whose line has no rule part, gets **no** entry in the table.
- A recorded profit that does not parse (e.g. `"1.2.3"`) drops the whole row: its `ValueError` reaches the row's outer handler.
- The month is never range-checked. A key built from a date always has a year and a month of at least 0: the date is split on `-`, so neither part holds a `-`. In the totals loop, such a key whose month is above 12 raises an `IndexError` that nothing catches, so no report is produced. Month 0 is listed: its name lookup wraps round to the last name. The model returns `Failed(key)` for this case.

## Model

| member | source | states |
|---|---|---|
| Gains.ParseGainsList | analysis.py:5-30 | A missing file gives no table. Otherwise the table is the fold `GainsOf` of the lines, built line by line in file order. |
| Gains.StoreLine | analysis.py:10-19 | One line changes the table exactly as its entry does. A blank line, or one with no non-blank rule part after the cut, changes nothing. |
| Gains.StoreRules | analysis.py:20-26 | The rule loop stores each valid rule in place. It equals merging the line's valid rules into the product's earlier rules, and changes nothing when there is none. |
| Gains.StoreRule | analysis.py:21-26 | One rule changes the table exactly as merging the line's rules one rule later does. A rule without exactly one colon, or whose gain does not parse, changes nothing. |
| Gains.MergeStep | analysis.py:24 | Storing one more valid rule in place equals merging the rules one rule later. |
| Gains.ParseRule | analysis.py:21-24 | One rule `q:g`: the stripped quantity key with `float(g.strip())`. No colon, more than one colon, or a gain that does not parse gives nothing. `ParseRuleShape` and `ParseRuleOneColon` pin this down. |
| Gains.LineEntry | analysis.py:10-19 | One line of the list: its stripped product name and its valid rules. A blank line, or one without a non-blank rule part after the cut, gives nothing. `StoreLine` and `LineEntryShape` are proved against it. |
| Gains.ParseRuleShape | analysis.py:21-24 | A rule with one colon gives the stripped quantity key and `float(gain.strip())`, or is dropped when the gain does not parse. |
| Gains.ParseRuleOneColon | analysis.py:21-26 | Only a rule with exactly one colon is stored. No colon, or two or more (the two-way unpack fails), drops it. |
| Gains.RuleValuesLastWins | analysis.py:20-24 | A quantity key is in a line's rules exactly when some valid rule carries it. Its value is the one of the last such rule. |
| Gains.LineEntryShape | analysis.py:10-19 | A line `name + 2-or-more blanks + rules` is cut once at that run. Its product is the name, and its rules are the comma-separated pieces of the rest, however many double blanks they contain. |
| Gains.ApplyEntryFrame | analysis.py:17-24 | A line changes only its own product. The product has an entry afterwards exactly when it had one or the line has a valid rule. New rules override equal keys and keep the others. |
| Gains.BuildKeys | analysis.py:17-26 | A product is in the table exactly when some line names it with at least one valid rule. |
| GainsExamples.MixedLine | analysis.py:14-26 | `"ProductX   1:abc,2:10"` keeps only the rule `2 -> 10.0`. |
| PyText.SplitAtSpaceRunAt | analysis.py:14 | The one-cut split falls exactly at the first run of two or more blanks and removes the whole run. |
| PyText.SplitAtSpaceRunSpec | analysis.py:14 | One piece when there is no run of two blanks. Otherwise two pieces: the prefix before the leftmost run (with no double blank and no trailing blank) and the suffix after the whole greedy run (with no leading blank). |
| PyText.Strip | analysis.py:10 | The result has no leading or trailing whitespace and is no longer than the input. |
| PyText.LStripSpec | analysis.py:10 | `lstrip()` removes an all-whitespace prefix and keeps a suffix that does not start with whitespace. |
| PyText.RStripSpec | analysis.py:10 | `rstrip()` removes an all-whitespace suffix and keeps a prefix that does not end in whitespace. |
| PyText.RunStartFirst | analysis.py:14 | The cut position found is the leftmost place where two whitespace characters meet. |
| PyText.RunEndSpec | analysis.py:14 | The run removed at the cut is all whitespace and is greedy: the character after it is not whitespace. |
| PyText.StripEmptyIff | analysis.py:10-12 | A line strips to nothing exactly when it is all whitespace. |
| PyText.StripIdempotent | analysis.py:15-18 | Stripping twice is stripping once. |
| PyText.SplitPieces | analysis.py:19-23 | `str.split(sep)` gives one more piece than there are separators, and no piece holds the separator. |
| PyText.JoinSplit | analysis.py:19 | Joining the pieces with the separator gives back the text. |
| PyText.SplitJoin | analysis.py:19 | Splitting pieces that contain no separator, once joined, gives back the pieces. |
| PyText.KeepDigitsAndDots | analysis.py:60 | The character filter leaves only digits and dots and never lengthens the text. |
| PyText.KeepChar | analysis.py:60 | On one character, the filter keeps a digit or a dot and removes anything else. |
| PyText.KeepConcat | analysis.py:60 | The filter works character by character: it distributes over concatenation. With `KeepChar`, this fixes its result on every string. |
| PyText.KeepAllowed | analysis.py:60 | The filter leaves text that is already only digits and dots unchanged. |
| PyText.Without | analysis.py:55 | `replace(c, '')` leaves no `c` and never lengthens the text. |
| PyText.WithoutChar | analysis.py:55 | On one character, `replace(c, '')` removes it when it is `c` and keeps it otherwise. |
| PyText.WithoutConcat | analysis.py:55 | `replace(c, '')` distributes over concatenation. With `WithoutChar`, this fixes its result: every other character is kept, in order. |
| PyText.WithoutAbsent | analysis.py:55 | Removing a character that does not occur changes nothing. |
| PyText.Split | analysis.py:19 | `str.split(sep)` always gives at least one piece. `SplitPieces`, `JoinSplit` and `SplitJoin` fix the pieces. |
| PyText.SplitAtSpaceRun | analysis.py:14 | `re.split(r'\s{2,}', s, 1)` gives one or two pieces. `SplitAtSpaceRunSpec` and `SplitAtSpaceRunAt` fix them. |
| PyNumbers.ParseInt | analysis.py:66-67 | `int(s)`: an optional sign and decimal digits between whitespace. Anything else is the `ValueError`. The whitespace is `int()`'s own set, read off by `IntStrip`: tab, line feed, vertical tab, form feed, carriage return and space. `IntRoundTrip`, `ParseIntDigits`, `ParseIntNoMinus` and `ParseIntSeparator` are proved about it. |
| PyNumbers.IntStrip | analysis.py:66-67 | The text `int()` reads has no `int()` whitespace at either end and is no longer than the input. |
| PyNumbers.IntLStripSpec | analysis.py:66-67 | `int()` skips an all-whitespace prefix and keeps a suffix that does not start with whitespace. |
| PyNumbers.IntRStripSpec | analysis.py:66-67 | `int()` skips an all-whitespace suffix and keeps a prefix that does not end in whitespace. |
| PyNumbers.IntStripTrimmed | analysis.py:66-67 | Text with no `int()` whitespace at either end is read whole. |
| PyNumbers.IntStripKeeps | analysis.py:66-67 | Skipping whitespace only removes characters: whatever `int()` reads was in the text. |
| PyNumbers.ParseIntSeparator | analysis.py:66-67 | Digits with one of the separators `\x1c`–`\x1f` before or after them are not an integer, although `str.strip()` would have removed that character. |
| PyNumbers.ParseFloat | analysis.py:61 | `float(t)` on an optionally signed plain decimal. Anything else is the `ValueError`. `CleanDecimal` and `TruncatedKey` are proved about it. |
| PyNumbers.ParseIntDigits | analysis.py:67-68 | `int()` of a run of digits, leading zeros allowed, is its value. |
| PyNumbers.ParseIntNoMinus | analysis.py:67-68 | `int()` of text without a `-` is never negative. |
| PyNumbers.IntRoundTrip | analysis.py:67-69 | `int(str(i)) == i`. |
| PyNumbers.ZeroPad2RoundTrip | analysis.py:69 | `f"{m:02d}"` reads back as `m`, is at least two characters long and has no `-` after its first character. |
| PyNumbers.CleanDecimal | analysis.py:60-61 | Text of digits and dots is a number exactly when it has at most one dot and at least one digit. Its value is then non-negative. |
| PyNumbers.TruncatedKey | analysis.py:82 | `str(int(float(q)))` for `"n"` and `"n.<digits>"` is `"n"`. |
| PyNumbers.Truncate | analysis.py:82 | `int()` of a float truncates toward zero. |
| StringOrder.Less | analysis.py:96 | Python's `str` ordering: code point by code point, a proper prefix first. `LessIrreflexive`, `LessTransitive` and `LessTotal` are proved about it. |
| StringOrder.LessIrreflexive | analysis.py:96 | No key is less than itself. |
| StringOrder.LessTransitive | analysis.py:96 | The ordering is transitive. |
| StringOrder.LessTotal | analysis.py:96 | Of two different keys, one is less than the other. |
| StringOrder.Sorted | analysis.py:96 | `sorted()` of the month keys gives them in strictly ascending order, each key exactly once. |
| StringOrder.Least | analysis.py:96 | Gives the smallest key of a non-empty set. |
| StringOrder.AscendingIndex | analysis.py:96-100 | In the sorted list, a smaller key comes earlier. |
| Sales.ParsePrice | analysis.py:60-61 | The cleaned price is 0.0 when empty and otherwise `float()` of it. `ParsePriceSpec` characterises it. |
| Sales.MonthKey | analysis.py:64-69 | The `"YYYY-MM"` key of a date split on `-`. Fewer than three parts, or a year or month that is not an integer, drops the row. `MonthKeyShape`, `MonthKeyNeedsThreeParts` and `MonthKeyListedIff` are proved about it. |
| Sales.QuantityKey | analysis.py:82 | `str(int(float(q)))`, or nothing when `float()` fails. `QuantityKeyTruncates` is proved about it. |
| Sales.ResolveProfit | analysis.py:71-86 | The first-match profit chain. `ProfitChain`, `RecordedZeroWins` and `ProfitFromRule` are proved about it. |
| Sales.RowSale | analysis.py:51-89 | The sale a data row stands for, or nothing when the row is skipped. `RowKept` characterises it. |
| Sales.Listable | analysis.py:101-102 | The totals loop can unpack the key into two parts and look up the month name. `MonthKeyListable` and `ListMonth` are proved against it. |
| Sales.ParsePriceSpec | analysis.py:60-61 | A price with nothing left after cleaning is 0.0. Otherwise it parses exactly when at most one dot and at least one digit remain. A price is never negative. |
| Sales.MonthKeyShape | analysis.py:64-69 | `"<year>-<month>-<rest>"` with digit-run year and month, leading zeros allowed, gives `str(int(year)) + "-" + f"{int(month):02d}"`, whatever the rest and even for a month above 12. |
| Sales.MonthKeyListedIff | analysis.py:64-102 | Every key the row loop accepts has a year and a month of at least 0. The totals loop can list it exactly when its month is at most 12. |
| Sales.MonthKeySeparatorYear | analysis.py:63-66 | A digit-run year followed by a separator character `\x1c`–`\x1f` drops the row, whatever follows. |
| Sales.MonthKeyNeedsThreeParts | analysis.py:64-66 | A date with fewer than two `-` drops the row. |
| Sales.MonthKeyListable | analysis.py:101-102 | For any integer year and month, the totals loop can unpack the key and look up its month name exactly when the year is not negative and the month is in 0..12. |
| Sales.NegativeYear | analysis.py:101 | A key built from a negative year has two `-` and cannot be unpacked. |
| Sales.NegativeMonth | analysis.py:101 | A key built from a negative month has two `-` and cannot be unpacked. |
| Sales.ProfitChain | analysis.py:71-86 | A non-empty cleaned profit decides the profit (or drops the row) whatever the price, product, quantity and table. Otherwise the profit is never missing: 0 for a zero price, else the product's rule under the truncated quantity, else 0. |
| Sales.RecordedZeroWins | analysis.py:75-76 | A recorded `"0"` is the profit even when a rule would apply. |
| Sales.QuantityKeyTruncates | analysis.py:82 | The quantities `"n"` and `"n.<digits>"` are looked up under `"n"`. |
| Sales.ProfitFromRule | analysis.py:80-84 | With an empty profit and a non-zero price, a product with a rule for `n` gets that rule's gain for the quantities `"n"` and `"n.<digits>"`. |
| Sales.RowKept | analysis.py:49-92 | A row is dropped exactly when it has fewer than 5 cells, or its price, date or non-empty cleaned profit does not parse. The product and the quantity never drop a row. A kept row carries the date's month key, the cleaned price (non-negative) and the resolved profit. |
| Sales.AccumulateMonths | analysis.py:49-92 | After the row loop, each accumulator equals the per-month sum of its column over the accepted rows. |
| Sales.AddSale | analysis.py:88-89 | A skipped row adds to neither accumulator. A kept row adds its price and its profit under the same month. |
| Sales.ByMonthSnoc | analysis.py:88-89 | One more sale adds its amount to its own month only. |
| Sales.AcceptedSnoc | analysis.py:49 | The rows are processed in order: one more row adds its sale, if any, at the end. |
| Sales.ByMonthKeys | analysis.py:88-89 | Both accumulators have exactly the months of the accepted sales as keys. |
| Sales.ByMonthTotal | analysis.py:100-106 | Summing an accumulator over any repetition-free key list that covers its keys gives the column total over the accepted sales. |
| Sales.SumOverAdd | analysis.py:105-106 | Adding an amount under one listed key adds it to the sum over the key list. |
| Sales.GrandTotals | analysis.py:100-106 | The totals loop either lists every month and sums the accumulators in list order, or stops at the first month it cannot list. |
| Sales.VisitMonth | analysis.py:101-106 | One pass lists the month and, when that succeeds, adds its two sums to the running totals. |
| Sales.ListMonth | analysis.py:101-102 | The unpack of the key and the month-name lookup succeed exactly for listable keys. |
| Sales.AnalyzeSales | analysis.py:32-106 | A file without even a header row ends in the uncaught `StopIteration`. Otherwise the header row is never aggregated. When every month can be listed, the result holds both accumulators (same key set, the accepted months), the months in ascending order, and grand totals equal to the column sums over the accepted rows. Otherwise it fails at the smallest month that cannot be listed. |
| Sales.RunReport | analysis.py:131-133 | The analysis runs exactly when both files exist, on the table read from the gain list. An empty sales file ends in the uncaught `StopIteration`. |
| SalesExamples.PaddedMonth | analysis.py:64-69 | `"2024-3-07"` falls in `"2024-03"`. |
| SalesExamples.TwoDigitMonth | analysis.py:64-69 | `"2024-03-07"` falls in `"2024-03"`. |
| SalesExamples.MonthThirteen | analysis.py:101-102 | `"2024-13-01"` is accepted under `"2024-13"`, which the totals loop cannot list. |
| SalesExamples.MonthZero | analysis.py:101-102 | `"2024-0-15"` is accepted under `"2024-00"`, which is listed by wrapping round. |
| SalesExamples.SeparatorYear | analysis.py:63-66 | `"2024\x1c-03-07"` drops the row. |
| SalesExamples.SlashDate | analysis.py:64-66 | `"03/07/2024"` drops the row. |
| SalesExamples.PriceCells | analysis.py:60-61 | `"1.2.3"` drops the row. `"N/A"` is price 0. |
| SalesExamples.CurrencyPrice | analysis.py:60-61 | `"C$1,234.50"` is the price 1234.5: the currency sign and the thousands separator are removed. |
| SalesExamples.QuotedQuantity | analysis.py:55 | The quantity cell `"1,000"` with its quotes is cleaned to `1000`, which `str(int(float(q)))` turns into the rule key `"1000"`. |

## Left out

- Opening and reading files, the character encodings and `csv.reader` tokenisation and quoting are not modelled. The gain list is a sequence of lines and the sales file a sequence of already-split rows. A missing file is `None`.
- The report text is not modelled: the Spanish month names, `,.2f` formatting, writing `reporte_de_ventas.txt` and the prints (analysis.py:95-125). The model keeps only whether the name lookup at line 102 succeeds.
- `process_excel.py` is not part of this model. It is Excel reading and CSV writing through a foreign library.
- Amounts are exact reals. IEEE rounding of `+=` and of `float()` is not modelled.
- PyNumbers.ParseFloat accepts only an optional sign and a plain decimal. It rejects the exponents, `inf`/`nan`, underscores and surrounding whitespace that Python's `float()` accepts. Every call site strips the text or filters it to digits and dots first, so only the first three matter. For gain values and quantities they would be read by Python and dropped or ignored here. This has one consequence the model does not show. In the program, a quantity such as `"inf"` or `"1e400"` on a row with an empty profit cell, a non-zero price and a product in the table makes `int(float(q))` raise an `OverflowError`. Nothing catches it, so the run ends there. In the model, that quantity is simply not looked up, and the profit is 0.
- PyNumbers.ParseInt accepts only ASCII digits with an optional sign and surrounding whitespace from C's `isspace()` set (tab, line feed, vertical tab, form feed, carriage return, space), which is what CPython's `int()` skips in an ASCII string. It rejects the underscores and non-ASCII digits that `int()` accepts. It also accepts text of any length, whereas CPython (from 3.11, and the matching security releases of 3.7 to 3.10) rejects a decimal string of more than 4300 digits with `ValueError`. In the program, such a year or month drops the row.
- The whitespace of `str.strip()` and `\s` is the ASCII part of Python's `str.isspace()`, which includes the separators `\x1c`–`\x1f`. The whitespace `int()` skips leaves those out. Unicode spaces are not modelled; in a string that holds a non-ASCII character, CPython's `int()` would also skip the separators and Unicode spaces.
- PyText.KeepDigitsAndDots keeps only the ASCII digits. Python's `\d` also keeps other Unicode decimal digits, and `float()` reads them. PyNumbers.ParseFloat reads only ASCII digits too. A price or profit cell written with non-ASCII digits is therefore read differently here.
- Sales.AnalyzeSales: on a failure in the totals loop, the model reports the month key where it fails. It does not say which exception Python raises (`ValueError` from the unpack, `IndexError` from the name lookup).

=== FILE: gains.dfy ===
/** The gain list: one product per line, "<name><two or more blanks><q>:<g>,<q>:<g>,...",
    read into a table product name -> (quantity key -> gain amount). */
module Gains {
  import opened PyText
  import opened PyNumbers

  type Rules = map<string, real>
  type GainsMap = map<string, Rules>

  /** One comma-separated rule "q:g": the stripped quantity key and the gain.
      None when the text has no colon, more than one colon (the two-way unpack
      fails) or a gain that float() rejects; such a rule is skipped. */
  function ParseRule(rule: string): Option<(string, real)>
  {
    if ':' !in rule then None
    else
      var pieces := Split(rule, ':');
      if |pieces| != 2 then None
      else
        match ParseFloat(Strip(pieces[1]))
        case None => None
        case Some(g) => Some((Strip(pieces[0]), g))
  }

  /** A rule with exactly one colon is the stripped text before the colon with
      the value after it, or is dropped when that value does not parse. */
  lemma ParseRuleShape(q: string, g: string)
    requires ':' !in q && ':' !in g
    ensures ParseRule(q + ":" + g) ==
      match ParseFloat(Strip(g))
      case None => None
      case Some(v) => Some((Strip(q), v))
  {
    var rule := q + ":" + g;
    assert ':' in rule by { assert rule[|q|] == ':'; }
    assert Split(rule, ':') == [q, g] by {
      SplitAfter(q, g, ':');
      SplitNone(g, ':');
    }
  }

  /** Only text with exactly one colon yields a rule. */
  lemma ParseRuleOneColon(rule: string)
    ensures ParseRule(rule).Some? ==> Count(rule, ':') == 1
  {
    SplitPieces(rule, ':');
  }

  /** The valid rules of a line, as a map; for a repeated quantity key the
      later rule wins. */
  function RuleValues(parsed: seq<Option<(string, real)>>): Rules
  {
    if parsed == [] then map[]
    else
      var earlier := RuleValues(parsed[..|parsed| - 1]);
      match parsed[|parsed| - 1]
      case None => earlier
      case Some((q, g)) => earlier[q := g]
  }

  /** ParseRule applied to each rule text. */
  function ParseRules(rules: seq<string>): (parsed: seq<Option<(string, real)>>)
    ensures |parsed| == |rules|
  {
    if rules == [] then [] else ParseRules(rules[..|rules| - 1]) + [ParseRule(rules[|rules| - 1])]
  }

  /** A quantity key is in the line's map exactly when some valid rule of the
      line carries it, and its value is the one of the last such rule. */
  lemma {:induction false} RuleValuesLastWins(parsed: seq<Option<(string, real)>>, q: string)
    ensures q in RuleValues(parsed) <==> exists i :: 0 <= i < |parsed| && parsed[i].Some? && parsed[i].value.0 == q
    ensures forall i :: 0 <= i < |parsed| && parsed[i].Some? && parsed[i].value.0 == q &&
                        (forall j :: i < j < |parsed| ==> parsed[j].None? || parsed[j].value.0 != q) ==>
                          q in RuleValues(parsed) && RuleValues(parsed)[q] == parsed[i].value.1
  {
    if parsed != [] {
      var init := parsed[..|parsed| - 1];
      RuleValuesLastWins(init, q);
      assert forall i :: 0 <= i < |init| ==> init[i] == parsed[i];
      var last := parsed[|parsed| - 1];
      if !(last.Some? && last.value.0 == q) && q in RuleValues(parsed) {
        var i :| 0 <= i < |init| && init[i].Some? && init[i].value.0 == q;
        assert parsed[i].Some? && parsed[i].value.0 == q;
      }
    }
  }

  /** The table after a product line whose valid rules are `rules`: nothing
      changes when there is none; otherwise they are merged into the product's
      earlier rules, overriding equal keys. */
  function Merge(gains: GainsMap, product: string, rules: Rules): GainsMap
  {
    if rules == map[] then gains
    else gains[product := (if product in gains then gains[product] else map[]) + rules]
  }

  /** The product name and the valid rules of one line of the list; None for a
      blank line and for a line without a non-blank rule part. */
  function LineEntry(line: string): Option<(string, Rules)>
  {
    var t := Strip(line);
    if t == [] then None
    else
      var parts := SplitAtSpaceRun(t);
      if |parts| > 1 && Strip(parts[1]) != [] then
        Some((Strip(parts[0]), RuleValues(ParseRules(Split(Strip(parts[1]), ',')))))
      else None
  }

  /** A line "<name><two or more blanks><rules>" whose name has no double
      blank and whose ends are not blank names the product `name`, and its rules
      are the comma-separated pieces of `rules`; extra double blanks inside the
      rules do not cut the line again. */
  lemma LineEntryShape(name: string, gap: string, rules: string)
    requires name != [] && !IsSpace(name[0]) && !IsSpace(name[|name| - 1]) && NoDoubleSpace(name)
    requires |gap| >= 2 && AllSpace(gap)
    requires rules != [] && !IsSpace(rules[0]) && !IsSpace(rules[|rules| - 1])
    ensures LineEntry(name + gap + rules) == Some((name, RuleValues(ParseRules(Split(rules, ',')))))
  {
    var line := name + gap + rules;
    assert line[0] == name[0] && line[|line| - 1] == rules[|rules| - 1];
    StripTrimmed(line);
    SplitAtSpaceRunAt(name, gap, rules);
    StripTrimmed(name);
    StripTrimmed(rules);
  }

  function ApplyEntry(gains: GainsMap, entry: Option<(string, Rules)>): GainsMap
  {
    match entry
    case None => gains
    case Some((product, rules)) => Merge(gains, product, rules)
  }

  /** The table built from a sequence of line entries, first entry first. */
  function Build(entries: seq<Option<(string, Rules)>>): GainsMap
  {
    if entries == [] then map[] else ApplyEntry(Build(entries[..|entries| - 1]), entries[|entries| - 1])
  }

  function LineEntries(lines: seq<string>): (entries: seq<Option<(string, Rules)>>)
    ensures |entries| == |lines|
  {
    if lines == [] then [] else LineEntries(lines[..|lines| - 1]) + [LineEntry(lines[|lines| - 1])]
  }

  /** The table read from the lines of the list. */
  function GainsOf(lines: seq<string>): GainsMap
  {
    Build(LineEntries(lines))
  }

  /** parse_gains_list: None when the file is missing; otherwise the table read
      line by line. */
  method ParseGainsList(file: Option<seq<string>>) returns (gains: Option<GainsMap>)
    ensures file.None? ==> gains.None?
    ensures file.Some? ==> gains == Some(GainsOf(file.value))
  {
    if file.None? {
      return None;
    }
    var lines := file.value;
    var gainsMap: GainsMap := map[];
    for i := 0 to |lines|
      invariant gainsMap == Build(LineEntries(lines[..i]))
    {
      assert lines[..i + 1][..i] == lines[..i];
      assert (LineEntries(lines[..i]) + [LineEntry(lines[i])])[..i] == LineEntries(lines[..i]);
      gainsMap := StoreLine(gainsMap, lines[i]);
    }
    assert lines[..|lines|] == lines;
    gains := Some(gainsMap);
  }

  /** The body of the loop over the lines: a blank line or one without a rule
      part is passed over; otherwise each rule of the line is stored. */
  method StoreLine(gainsMap: GainsMap, rawLine: string) returns (updated: GainsMap)
    ensures updated == ApplyEntry(gainsMap, LineEntry(rawLine))
  {
    updated := gainsMap;
    var line := Strip(rawLine);
    if line == [] {
      assert LineEntry(rawLine) == None;
      return;
    }
    var parts := SplitAtSpaceRun(line);
    var productName := Strip(parts[0]);
    if |parts| > 1 && Strip(parts[1]) != [] {
      var rules := Split(Strip(parts[1]), ',');
      assert LineEntry(rawLine) == Some((productName, RuleValues(ParseRules(rules))));
      updated := StoreRules(gainsMap, productName, rules);
    } else {
      assert LineEntry(rawLine) == None;
    }
  }

  /** The loop over the comma-separated rules of one line: each valid rule is
      stored in place under the product, a malformed one is skipped. */
  method StoreRules(gainsMap: GainsMap, productName: string, rules: seq<string>) returns (updated: GainsMap)
    ensures updated == Merge(gainsMap, productName, RuleValues(ParseRules(rules)))
  {
    updated := gainsMap;
    for j := 0 to |rules|
      invariant updated == Merge(gainsMap, productName, RuleValues(ParseRules(rules[..j])))
    {
      assert rules[..j + 1] == rules[..j] + [rules[j]];
      assert ParseRules(rules[..j + 1]) == ParseRules(rules[..j]) + [ParseRule(rules[j])];
      updated := StoreRule(updated, gainsMap, productName, ParseRules(rules[..j]), rules[j]);
    }
    assert rules[..|rules|] == rules;
  }

  /** The body of the loop over the rules: a rule with one colon and a gain
      that float() accepts is stored under the product; any other is skipped. */
  method StoreRule(updated: GainsMap, ghost gainsMap: GainsMap, productName: string,
                   ghost parsed: seq<Option<(string, real)>>, rule: string) returns (stored: GainsMap)
    requires updated == Merge(gainsMap, productName, RuleValues(parsed))
    ensures stored == Merge(gainsMap, productName, RuleValues(parsed + [ParseRule(rule)]))
  {
    stored := updated;
    assert (parsed + [ParseRule(rule)])[..|parsed|] == parsed;
    if ':' in rule {
      var pieces := Split(rule, ':');
      if |pieces| == 2 {
        var gain := ParseFloat(Strip(pieces[1]));
        if gain.Some? {
          var quantity := Strip(pieces[0]);
          MergeStep(gainsMap, productName, parsed, quantity, gain.value);
          var current := if productName in stored then stored[productName] else map[];
          stored := stored[productName := current[quantity := gain.value]];
        }
      }
    }
  }

  /** Storing one more valid rule in place is the same as merging the line's
      rules one rule later. */
  lemma MergeStep(gains: GainsMap, product: string, parsed: seq<Option<(string, real)>>, q: string, g: real)
    ensures
      var m := Merge(gains, product, RuleValues(parsed));
      var current := if product in m then m[product] else map[];
      Merge(gains, product, RuleValues(parsed + [Some((q, g))])) == m[product := current[q := g]]
  {
    assert (parsed + [Some((q, g))])[..|parsed|] == parsed;
    var earlier := RuleValues(parsed);
    assert RuleValues(parsed + [Some((q, g))]) == earlier[q := g];
    assert q in earlier[q := g];
    var base: Rules := if product in gains then gains[product] else map[];
    if earlier == map[] {
      assert base + map[q := g] == base[q := g];
    } else {
      assert base + earlier[q := g] == (base + earlier)[q := g];
    }
  }

  /** A line entry changes only its own product's entry, and that entry exists
      afterwards exactly when it existed before or the line has a valid rule:
      a line whose rules are all dropped, or that has none, adds no entry. */
  lemma ApplyEntryFrame(gains: GainsMap, entry: Option<(string, Rules)>, p: string)
    ensures entry.Some? && entry.value.0 != p ==>
      (p in ApplyEntry(gains, entry) <==> p in gains) &&
      (p in gains ==> ApplyEntry(gains, entry)[p] == gains[p])
    ensures entry.Some? && entry.value.0 == p ==>
      (p in ApplyEntry(gains, entry) <==> p in gains || entry.value.1 != map[])
    ensures entry.Some? && entry.value.0 == p && entry.value.1 != map[] ==>
      ApplyEntry(gains, entry)[p] == (if p in gains then gains[p] else map[]) + entry.value.1
  {
  }

  /** A product is in the table exactly when some line names it with at least
      one valid rule. */
  lemma {:induction false} BuildKeys(entries: seq<Option<(string, Rules)>>, p: string)
    ensures p in Build(entries) <==>
      exists i :: 0 <= i < |entries| && entries[i].Some? && entries[i].value.0 == p && entries[i].value.1 != map[]
  {
    if entries != [] {
      var init := entries[..|entries| - 1];
      BuildKeys(init, p);
      assert forall i :: 0 <= i < |init| ==> init[i] == entries[i];
      ApplyEntryFrame(Build(init), entries[|entries| - 1], p);
    }
  }
}

=== FILE: gains_examples.dfy ===
/** A worked example of one line of the gain list. */
module GainsExamples {
  import opened PyText
  import opened PyNumbers
  import opened Gains

  /** "ProductX   1:abc,2:10": the rule with an unreadable gain is dropped and
      the other one is kept. */
  lemma MixedLine()
    ensures LineEntry("ProductX   1:abc,2:10") == Some(("ProductX", map["2" := 10.0]))
  {
    var name, gap, rules := "ProductX", "   ", "1:abc,2:10";
    assert name + gap + rules == "ProductX   1:abc,2:10";
    NameHasNoDoubleSpace();
    assert AllSpace(gap);
    MixedRules();
    LineEntryShape(name, gap, rules);
  }

  lemma NameHasNoDoubleSpace()
    ensures NoDoubleSpace("ProductX")
  {
    var name := "ProductX";
    forall k | 0 <= k < |name| - 1 ensures !DoubleSpaceAt(name, k) {
      assert !IsSpace(name[k]);
    }
  }

  lemma MixedRules()
    ensures RuleValues(ParseRules(Split("1:abc,2:10", ','))) == map["2" := 10.0]
  {
    var parsed: seq<Option<(string, real)>> := [None, Some(("2", 10.0))];
    assert parsed[..1] == [None] && parsed[..1][..0] == [];
    assert RuleValues(parsed) == map["2" := 10.0];
    ParsedRules();
    RulePieces();
  }

  lemma ParsedRules()
    ensures ParseRules(["1:abc", "2:10"]) == [None, Some(("2", 10.0))]
  {
    BadGain();
    GoodGain();
    assert ["1:abc", "2:10"][..1] == ["1:abc"];
    assert ["1:abc"][..0] == [];
  }

  lemma RulePieces()
    ensures Split("1:abc,2:10", ',') == ["1:abc", "2:10"]
  {
    var a, b := "1:abc", "2:10";
    assert "1:abc,2:10" == a + [','] + b;
    assert ',' !in a && ',' !in b;
    SplitAfter(a, b, ',');
    SplitNone(b, ',');
  }

  lemma BadGain()
    ensures ParseRule("1:abc") == None
  {
    StripTrimmed("abc");
    assert ParseFloat("abc") == None;
    assert "1:abc" == "1" + ":" + "abc";
    ParseRuleShape("1", "abc");
  }

  lemma GoodGain()
    ensures ParseRule("2:10") == Some(("2", 10.0))
  {
    StripTrimmed("10");
    StripTrimmed("2");
    assert AllDigits("10") && DigitsValue("10") == 10;
    assert ParseFloat("10") == Some(10.0);
    assert "2:10" == "2" + ":" + "10";
    ParseRuleShape("2", "10");
  }
}

=== FILE: py_numbers.dfy ===
/** Python's number conversions as the sales analysis uses them: int(s) and
    float(s) on plain decimal text, str(n) for integers, int(x) on a float
    (truncation toward zero) and the two-digit zero padding of f"{m:02d}".
    Amounts are exact reals. */
module PyNumbers {
  import opened PyText

  function DigitValue(c: char): nat
    requires IsDigit(c)
  {
    c as int - '0' as int
  }

  function DigitChar(d: nat): (c: char)
    requires d < 10
    ensures IsDigit(c) && DigitValue(c) == d
  {
    ('0' as int + d) as char
  }

  function Pow10(n: nat): (p: nat)
    ensures p >= 1
  {
    if n == 0 then 1 else 10 * Pow10(n - 1)
  }

  /** The value of a string of decimal digits, most significant first; 0 for the empty string. */
  function DigitsValue(ds: string): nat
    requires AllDigits(ds)
  {
    if ds == [] then 0 else DigitsValue(ds[..|ds| - 1]) * 10 + DigitValue(ds[|ds| - 1])
  }

  /** k digits never reach 10^k, so a fraction part read as digits / 10^k stays below 1. */
  lemma {:induction false} DigitsValueBound(ds: string)
    requires AllDigits(ds)
    ensures DigitsValue(ds) < Pow10(|ds|)
  {
    if ds != [] {
      DigitsValueBound(ds[..|ds| - 1]);
    }
  }

  /** str(n) for a natural number: its decimal digits, without leading zeros. */
  function NatToString(n: nat): (s: string)
    ensures |s| >= 1 && AllDigits(s)
    ensures DigitsValue(s) == n
    ensures s[0] == '0' ==> n == 0
  {
    if n < 10 then [DigitChar(n)]
    else
      var high := NatToString(n / 10);
      var s := high + [DigitChar(n % 10)];
      assert s[..|s| - 1] == high;
      s
  }

  /** str(i) for an integer. */
  function IntToString(i: int): (s: string)
    ensures |s| >= 1 && '-' !in s[1..]
    ensures (s[0] == '-') == (i < 0)
  {
    if i < 0 then "-" + NatToString(-i) else NatToString(i)
  }

  /** An optionally signed run of digits, nothing else (the text inside int()'s whitespace). */
  function ParseSigned(t: string): Option<int>
  {
    if t != [] && (t[0] == '-' || t[0] == '+') then
      if t[1..] != [] && AllDigits(t[1..]) then
        Some(if t[0] == '-' then -(DigitsValue(t[1..]) as int) else DigitsValue(t[1..]))
      else None
    else if t != [] && AllDigits(t) then Some(DigitsValue(t))
    else None
  }

  /** The whitespace int() skips around its digits: \t \n \v \f \r and the space.
      Unlike str.strip(), it does not skip the separators \x1c..\x1f. */
  predicate IsIntSpace(c: char) {
    var n := c as int;
    n == 32 || 9 <= n <= 13
  }

  predicate AllIntSpace(s: string) {
    forall i :: 0 <= i < |s| ==> IsIntSpace(s[i])
  }

  /** Neither end of s is whitespace in int()'s sense. */
  predicate IntTrimmed(s: string) {
    s == [] || (!IsIntSpace(s[0]) && !IsIntSpace(s[|s| - 1]))
  }

  /** The leading whitespace int() skips. */
  function IntLStrip(s: string): (r: string)
    ensures |r| <= |s|
  {
    if s != [] && IsIntSpace(s[0]) then IntLStrip(s[1..]) else s
  }

  /** What IntLStrip removes is int() whitespace, and what it keeps does not start with any. */
  lemma {:induction false} IntLStripSpec(s: string)
    ensures var r := IntLStrip(s);
      && r == s[|s| - |r|..]
      && AllIntSpace(s[..|s| - |r|])
      && (r == [] || !IsIntSpace(r[0]))
  {
    if s != [] && IsIntSpace(s[0]) {
      IntLStripSpec(s[1..]);
      var r := IntLStrip(s[1..]);
      assert s[..|s| - |r|] == [s[0]] + s[1..][..|s| - 1 - |r|];
      assert s[|s| - |r|..] == s[1..][|s| - 1 - |r|..];
    }
  }

  /** The trailing whitespace int() skips. */
  function IntRStrip(s: string): (r: string)
    ensures |r| <= |s|
  {
    if s != [] && IsIntSpace(s[|s| - 1]) then IntRStrip(s[..|s| - 1]) else s
  }

  /** What IntRStrip removes is int() whitespace, and what it keeps does not end in any. */
  lemma {:induction false} IntRStripSpec(s: string)
    ensures var r := IntRStrip(s);
      && r == s[..|r|]
      && AllIntSpace(s[|r|..])
      && (r == [] || !IsIntSpace(r[|r| - 1]))
  {
    if s != [] && IsIntSpace(s[|s| - 1]) {
      IntRStripSpec(s[..|s| - 1]);
      var r := IntRStrip(s[..|s| - 1]);
      assert s[|r|..] == s[..|s| - 1][|r|..] + [s[|s| - 1]];
      assert s[..|r|] == s[..|s| - 1][..|r|];
    }
  }

  /** The text int() reads between its surrounding whitespace. */
  function IntStrip(s: string): (r: string)
    ensures IntTrimmed(r)
    ensures |r| <= |s|
  {
    IntLStripSpec(s);
    IntRStripSpec(IntLStrip(s));
    IntRStrip(IntLStrip(s))
  }

  /** Text with no int() whitespace at either end is read whole. */
  lemma IntStripTrimmed(s: string)
    requires IntTrimmed(s)
    ensures IntStrip(s) == s
  {
    assert IntLStrip(s) == s;
  }

  /** Skipping whitespace only removes characters: whatever is left was in the text. */
  lemma IntStripKeeps(s: string, c: char)
    requires c in IntStrip(s)
    ensures c in s
  {
    var l := IntLStrip(s);
    IntLStripSpec(s);
    IntRStripSpec(l);
    var i :| 0 <= i < |IntStrip(s)| && IntStrip(s)[i] == c;
    assert l[i] == c;
    assert s[|s| - |l| + i] == c;
  }

  /** int(s) for a string: surrounding whitespace allowed, optional sign, decimal
      digits (leading zeros allowed); None stands for the ValueError. */
  function ParseInt(s: string): Option<int>
  {
    ParseSigned(IntStrip(s))
  }

  /** int() of text with no '-' in it is never negative. */
  lemma ParseIntNoMinus(s: string)
    requires '-' !in s && ParseInt(s).Some?
    ensures ParseInt(s).value >= 0
  {
    var t := IntStrip(s);
    if t != [] && t[0] == '-' {
      IntStripKeeps(s, '-');
    }
  }

  /** int() of a plain run of digits, leading zeros allowed, is its value. */
  lemma ParseIntDigits(ds: string)
    requires ds != [] && AllDigits(ds)
    ensures ParseInt(ds) == Some(DigitsValue(ds))
  {
    assert IsDigit(ds[0]) && IsDigit(ds[|ds| - 1]);
    IntStripTrimmed(ds);
  }

  /** int() rejects a separator character \x1c..\x1f next to the digits, although
      str.strip() would have removed it. */
  lemma ParseIntSeparator(ds: string, c: char)
    requires ds != [] && AllDigits(ds) && 28 <= c as int <= 31
    ensures ParseInt(ds + [c]) == None
    ensures ParseInt([c] + ds) == None
  {
    var t, u := ds + [c], [c] + ds;
    assert t[0] == ds[0] && t[|t| - 1] == c;
    assert u[0] == c && u[|u| - 1] == ds[|ds| - 1];
    IntStripTrimmed(t);
    IntStripTrimmed(u);
    assert !IsDigit(t[|t| - 1]);
    assert t[1..][|t| - 2] == c;
  }

  /** int(str(i)) == i. */
  lemma IntRoundTrip(i: int)
    ensures ParseInt(IntToString(i)) == Some(i)
  {
    var s := IntToString(i);
    assert !IsIntSpace(s[0]) && !IsIntSpace(s[|s| - 1]);
    IntStripTrimmed(s);
    if i < 0 {
      assert s[1..] == NatToString(-i);
    }
  }

  /** f"{m:02d}": the decimal form of m padded on the left with zeros to two
      characters; the sign counts towards the width. */
  function ZeroPad2(m: int): string
  {
    if 0 <= m < 10 then "0" + NatToString(m) else IntToString(m)
  }

  /** The padded form still reads back as m, it is at least two characters
      long, and it has no '-' after its first character. */
  lemma ZeroPad2RoundTrip(m: int)
    ensures ParseInt(ZeroPad2(m)) == Some(m)
    ensures |ZeroPad2(m)| >= 2 && '-' !in ZeroPad2(m)[1..]
  {
    if 0 <= m < 10 {
      var s := ZeroPad2(m);
      assert s == ['0', DigitChar(m)];
      assert s[..1] == ['0'] && s[..1][..0] == [];
      assert DigitsValue(s[..1]) == 0;
      assert AllDigits(s);
      IntStripTrimmed(s);
    } else {
      IntRoundTrip(m);
      if m < 0 {
        assert IntToString(m) == "-" + NatToString(-m);
      }
    }
  }

  /** Position of the first occurrence of c in s. */
  function IndexOf(s: string, c: char): (k: nat)
    requires c in s
    ensures k < |s| && s[k] == c && c !in s[..k]
  {
    if s[0] == c then 0
    else
      var k := IndexOf(s[1..], c);
      assert s[..k + 1] == [s[0]] + s[1..][..k];
      k + 1
  }

  /** The value of the decimal literal whole.frac. */
  function DecimalValue(whole: string, frac: string): (v: real)
    requires AllDigits(whole) && AllDigits(frac)
    ensures v >= 0.0
  {
    DigitsValue(whole) as real + DigitsValue(frac) as real / Pow10(|frac|) as real
  }

  /** An unsigned decimal literal: digits, or digits '.' digits with at least one
      digit on either side of the dot. */
  function ParseDecimal(t: string): Option<real>
  {
    if '.' in t then
      var k := IndexOf(t, '.');
      var whole, frac := t[..k], t[k + 1..];
      if AllDigits(whole) && AllDigits(frac) && (whole != [] || frac != []) then
        Some(DecimalValue(whole, frac))
      else None
    else if t != [] && AllDigits(t) then Some(DigitsValue(t) as real)
    else None
  }

  /** float(s) for a plain decimal with an optional sign; None stands for the
      ValueError. float() also ignores surrounding whitespace, but every text the
      analysis hands it is already stripped or holds only digits and dots, so
      that case is not represented here. */
  function ParseFloat(t: string): Option<real>
  {
    if t != [] && (t[0] == '-' || t[0] == '+') then
      match ParseDecimal(t[1..])
      case None => None
      case Some(v) => Some(if t[0] == '-' then -v else v)
    else ParseDecimal(t)
  }

  /** Without a sign, float() reads the text as an unsigned decimal. */
  lemma ParseFloatUnsigned(t: string)
    requires t == [] || (t[0] != '-' && t[0] != '+')
    ensures ParseFloat(t) == ParseDecimal(t)
  {
  }

  /** A string of digits and dots, such as the output of the character filter,
      is a number exactly when it has at most one dot and at least one digit;
      its value is then never negative. */
  lemma CleanDecimal(t: string)
    requires forall i :: 0 <= i < |t| ==> IsDigitOrDot(t[i])
    ensures ParseFloat(t).Some? <==> Count(t, '.') <= 1 && Count(t, '.') < |t|
    ensures ParseFloat(t).Some? ==> ParseFloat(t).value >= 0.0
  {
    if t != [] {
      assert IsDigitOrDot(t[0]) && IsDigitOrDot(t[|t| - 1]);
    }
    ParseFloatUnsigned(t);
    if '.' in t {
      CleanDecimalDotted(t);
    } else {
      CountZero(t, '.');
      assert AllDigits(t);
    }
  }

  lemma CleanDecimalDotted(t: string)
    requires forall i :: 0 <= i < |t| ==> IsDigitOrDot(t[i])
    requires '.' in t
    ensures ParseDecimal(t).Some? <==> Count(t, '.') <= 1 && Count(t, '.') < |t|
    ensures ParseDecimal(t).Some? ==> ParseDecimal(t).value >= 0.0
  {
    var k := IndexOf(t, '.');
    var whole, frac := t[..k], t[k + 1..];
    FirstDot(t);
    assert |t| == |whole| + 1 + |frac|;
    CountZero(frac, '.');
    assert AllDigits(frac) <==> '.' !in frac by {
      forall i | 0 <= i < |frac| ensures IsDigitOrDot(frac[i]) {
        assert frac[i] == t[k + 1 + i];
      }
    }
    if AllDigits(frac) && (whole != [] || frac != []) {
      assert ParseDecimal(t) == Some(DecimalValue(whole, frac));
    } else {
      assert ParseDecimal(t) == None;
    }
  }

  /** Cutting digits-and-dots text at its first dot: digits before it and one
      dot fewer after it. */
  lemma FirstDot(t: string)
    requires forall i :: 0 <= i < |t| ==> IsDigitOrDot(t[i])
    requires '.' in t
    ensures var k := IndexOf(t, '.');
      && AllDigits(t[..k])
      && Count(t, '.') == 1 + Count(t[k + 1..], '.')
  {
    var k := IndexOf(t, '.');
    var whole, frac := t[..k], t[k + 1..];
    CutAt(t, k);
    CountConcat(whole + ['.'], frac, '.');
    CountConcat(whole, ['.'], '.');
    assert Count(['.'], '.') == 1;
    CountZero(whole, '.');
    assert AllDigits(whole) by {
      forall i | 0 <= i < |whole| ensures IsDigit(whole[i]) {
        assert whole[i] == t[i] && whole[i] != '.';
      }
    }
  }

  /** A string is the text before position k, the character at k and the text after it. */
  lemma CutAt(s: string, k: nat)
    requires k < |s|
    ensures s == s[..k] + [s[k]] + s[k + 1..]
  {
  }

  lemma {:induction false} CountConcat(a: string, b: string, c: char)
    ensures Count(a + b, c) == Count(a, c) + Count(b, c)
  {
    if a == [] {
      assert a + b == b;
    } else {
      assert (a + b)[0] == a[0] && (a + b)[1..] == a[1..] + b;
      CountConcat(a[1..], b, c);
    }
  }

  /** int(x) for a float: truncation toward zero. */
  function Truncate(x: real): (n: int)
    ensures 0.0 <= x ==> 0 <= n && n as real <= x < n as real + 1.0
    ensures x < 0.0 ==> n <= 0 && n as real - 1.0 < x <= n as real
  {
    if x >= 0.0 then x.Floor else -((-x).Floor)
  }

  /** A digit string, a dot and a digit string read as whole part plus fraction. */
  lemma ParseDecimalDotted(w: string, frac: string)
    requires AllDigits(w) && AllDigits(frac) && w != []
    ensures ParseDecimal(w + "." + frac) == Some(DecimalValue(w, frac))
  {
    var t := w + "." + frac;
    assert '.' !in w by { assert forall i :: 0 <= i < |w| ==> IsDigit(w[i]); }
    assert t[|w|] == '.';
    assert t[..|w|] == w;
    var k := IndexOf(t, '.');
    assert k == |w|;
    assert t[..k] == w && t[k + 1..] == frac;
  }

  /** Truncating whole.frac toward zero leaves the whole part. */
  lemma TruncateDecimal(whole: string, frac: string)
    requires AllDigits(whole) && AllDigits(frac)
    ensures Truncate(DecimalValue(whole, frac)) == DigitsValue(whole)
  {
    DigitsValueBound(frac);
    var n, a, b := DigitsValue(whole), DigitsValue(frac), Pow10(|frac|);
    var f := a as real / b as real;
    assert 0.0 <= f < 1.0 by { FractionBelowOne(a, b); }
    var x := DecimalValue(whole, frac);
    assert x == n as real + f;
    var m := Truncate(x);
    assert m as real <= x < m as real + 1.0;
    assert m as real < n as real + 1.0 && (n as real) < m as real + 1.0;
  }

  lemma FractionBelowOne(a: nat, b: nat)
    requires a < b
    ensures 0.0 <= a as real / b as real < 1.0
  {
  }

  /** float(str(n)) == n for a natural number. */
  lemma NatFloatRoundTrip(n: nat)
    ensures ParseFloat(NatToString(n)) == Some(n as real)
  {
    var w := NatToString(n);
    assert IsDigit(w[0]) && IsDigit(w[|w| - 1]);
    assert '.' !in w by { assert forall i :: 0 <= i < |w| ==> IsDigit(w[i]); }
    ParseFloatUnsigned(w);
  }

  /** str(int(float(q))) for the digits of a natural number, with or without a
      fraction part: "12", "12.0" and "12.9" all come out as "12". */
  lemma TruncatedKey(n: nat, frac: string)
    requires AllDigits(frac)
    ensures ParseFloat(NatToString(n)) == Some(n as real)
    ensures IntToString(Truncate(n as real)) == NatToString(n)
    ensures ParseFloat(NatToString(n) + "." + frac).Some?
    ensures IntToString(Truncate(ParseFloat(NatToString(n) + "." + frac).value)) == NatToString(n)
  {
    NatFloatRoundTrip(n);
    var w := NatToString(n);
    var t := w + "." + frac;
    assert t[0] == w[0] && IsDigit(w[0]);
    if frac == [] {
      assert t[|t| - 1] == '.';
    } else {
      assert t[|t| - 1] == frac[|frac| - 1];
      assert IsDigit(frac[|frac| - 1]);
    }
    ParseFloatUnsigned(t);
    ParseDecimalDotted(w, frac);
    TruncateDecimal(w, frac);
  }
}

=== FILE: py_text.dfy ===
/** The pieces of Python's string handling that the sales analysis relies on:
    str.strip(), str.split(sep), str.replace(c, ''), the character filter
    re.sub(r'[^\d.]', '', s) and the one-cut split re.split(r'\s{2,}', s, 1).
    Strings are sequences of characters; whitespace and digits are the ASCII ones. */
module PyText {

  datatype Option<T> = None | Some(value: T)

  /** Python's str.isspace() on the ASCII range: \t \n \v \f \r, the separators
      \x1c..\x1f and the space. The regex class \s matches the same characters. */
  predicate IsSpace(c: char) {
    var n := c as int;
    n == 32 || 9 <= n <= 13 || 28 <= n <= 31
  }

  predicate IsDigit(c: char) {
    '0' <= c <= '9'
  }

  predicate IsDigitOrDot(c: char) {
    IsDigit(c) || c == '.'
  }

  predicate AllSpace(s: string) {
    forall i :: 0 <= i < |s| ==> IsSpace(s[i])
  }

  predicate AllDigits(s: string) {
    forall i :: 0 <= i < |s| ==> IsDigit(s[i])
  }

  /** Neither end of s is whitespace. */
  predicate Trimmed(s: string) {
    s == [] || (!IsSpace(s[0]) && !IsSpace(s[|s| - 1]))
  }

  /** s.lstrip(): the suffix left after the longest all-whitespace prefix. */
  function LStrip(s: string): (r: string)
    ensures |r| <= |s|
  {
    if s != [] && IsSpace(s[0]) then LStrip(s[1..]) else s
  }

  /** What lstrip() removes is whitespace, and what it keeps does not start with any. */
  lemma {:induction false} LStripSpec(s: string)
    ensures var r := LStrip(s);
      && r == s[|s| - |r|..]
      && AllSpace(s[..|s| - |r|])
      && (r == [] || !IsSpace(r[0]))
  {
    if s != [] && IsSpace(s[0]) {
      LStripSpec(s[1..]);
      var r := LStrip(s[1..]);
      assert s[..|s| - |r|] == [s[0]] + s[1..][..|s| - 1 - |r|];
      assert s[|s| - |r|..] == s[1..][|s| - 1 - |r|..];
    }
  }

  /** s.rstrip(): the prefix left before the longest all-whitespace suffix. */
  function RStrip(s: string): (r: string)
    ensures |r| <= |s|
  {
    if s != [] && IsSpace(s[|s| - 1]) then RStrip(s[..|s| - 1]) else s
  }

  /** What rstrip() removes is whitespace, and what it keeps does not end in any. */
  lemma {:induction false} RStripSpec(s: string)
    ensures var r := RStrip(s);
      && r == s[..|r|]
      && AllSpace(s[|r|..])
      && (r == [] || !IsSpace(r[|r| - 1]))
  {
    if s != [] && IsSpace(s[|s| - 1]) {
      RStripSpec(s[..|s| - 1]);
      var r := RStrip(s[..|s| - 1]);
      assert s[|r|..] == s[..|s| - 1][|r|..] + [s[|s| - 1]];
      assert s[..|r|] == s[..|s| - 1][..|r|];
    }
  }

  /** s.strip(): whitespace removed from both ends. */
  function Strip(s: string): (r: string)
    ensures Trimmed(r)
    ensures |r| <= |s|
  {
    LStripSpec(s);
    RStripSpec(LStrip(s));
    RStrip(LStrip(s))
  }

  /** Stripping a string with no whitespace at either end changes nothing. */
  lemma StripTrimmed(s: string)
    requires Trimmed(s)
    ensures Strip(s) == s
  {
    assert LStrip(s) == s;
  }

  /** Stripping is idempotent. */
  lemma StripIdempotent(s: string)
    ensures Strip(Strip(s)) == Strip(s)
  {
    StripTrimmed(Strip(s));
  }

  /** A string strips to nothing exactly when it is all whitespace. */
  lemma StripEmptyIff(s: string)
    ensures Strip(s) == [] <==> AllSpace(s)
  {
    var l := LStrip(s);
    LStripSpec(s);
    RStripSpec(l);
    if Strip(s) == [] {
      assert AllSpace(l[0..]);
      assert s == s[..|s| - |l|] + l;
    }
  }

  /** re.sub(r'[^\d.]', '', s): every character that is not a digit or a dot removed. */
  function KeepDigitsAndDots(s: string): (r: string)
    ensures |r| <= |s|
    ensures forall i :: 0 <= i < |r| ==> IsDigitOrDot(r[i])
  {
    if s == [] then []
    else (if IsDigitOrDot(s[0]) then [s[0]] else []) + KeepDigitsAndDots(s[1..])
  }

  /** The filter works character by character, so it distributes over concatenation. */
  lemma {:induction false} KeepConcat(a: string, b: string)
    ensures KeepDigitsAndDots(a + b) == KeepDigitsAndDots(a) + KeepDigitsAndDots(b)
  {
    if a != [] {
      var head := if IsDigitOrDot(a[0]) then [a[0]] else [];
      assert (a + b)[0] == a[0] && (a + b)[1..] == a[1..] + b;
      assert KeepDigitsAndDots(a + b) == head + KeepDigitsAndDots(a[1..] + b);
      KeepConcat(a[1..], b);
      assert KeepDigitsAndDots(a) == head + KeepDigitsAndDots(a[1..]);
    } else {
      assert a + b == b;
    }
  }

  /** On one character the filter keeps a digit or a dot and drops anything
      else; with KeepConcat this fixes the filter on every string. */
  lemma KeepChar(c: char)
    ensures KeepDigitsAndDots([c]) == (if IsDigitOrDot(c) then [c] else [])
  {
    assert [c][1..] == [];
  }

  /** A string made only of digits and dots passes the filter unchanged; with the
      postcondition of KeepDigitsAndDots this makes the filter idempotent. */
  lemma {:induction false} KeepAllowed(s: string)
    requires forall i :: 0 <= i < |s| ==> IsDigitOrDot(s[i])
    ensures KeepDigitsAndDots(s) == s
  {
    if s != [] {
      KeepAllowed(s[1..]);
    }
  }

  /** s.replace(c, ''): every occurrence of c removed, everything else kept in order. */
  function Without(s: string, c: char): (r: string)
    ensures c !in r
    ensures |r| <= |s|
  {
    if s == [] then []
    else (if s[0] == c then [] else [s[0]]) + Without(s[1..], c)
  }

  /** On one character, replace(c, '') drops it when it is c and keeps it otherwise. */
  lemma WithoutChar(x: char, c: char)
    ensures Without([x], c) == (if x == c then [] else [x])
  {
    assert [x][1..] == [];
  }

  /** replace(c, '') works character by character, so it distributes over
      concatenation; with WithoutChar this fixes it on every string, the other
      characters kept in their order. */
  lemma {:induction false} WithoutConcat(a: string, b: string, c: char)
    ensures Without(a + b, c) == Without(a, c) + Without(b, c)
  {
    if a != [] {
      var head := if a[0] == c then [] else [a[0]];
      assert (a + b)[0] == a[0] && (a + b)[1..] == a[1..] + b;
      assert Without(a + b, c) == head + Without(a[1..] + b, c);
      WithoutConcat(a[1..], b, c);
      assert Without(a, c) == head + Without(a[1..], c);
    } else {
      assert a + b == b;
    }
  }

  /** Removing a character that does not occur changes nothing. */
  lemma {:induction false} WithoutAbsent(s: string, c: char)
    requires c !in s
    ensures Without(s, c) == s
  {
    if s != [] {
      WithoutAbsent(s[1..], c);
      assert [s[0]] + s[1..] == s;
    }
  }

  /** Number of occurrences of c in s. */
  function Count(s: string, c: char): (n: nat)
    ensures n <= |s|
  {
    if s == [] then 0
    else (if s[0] == c then 1 else 0) + Count(s[1..], c)
  }

  /** A character occurs exactly when its count is positive. */
  lemma {:induction false} CountZero(s: string, c: char)
    ensures Count(s, c) == 0 <==> c !in s
  {
    if s != [] {
      CountZero(s[1..], c);
      assert s == [s[0]] + s[1..];
    }
  }

  /** s.split(sep) for a one-character separator: the pieces between the
      separators, in order, empty pieces included; there is always at least one. */
  function Split(s: string, sep: char): (parts: seq<string>)
    ensures |parts| >= 1
  {
    if s == [] then [[]]
    else
      var rest := Split(s[1..], sep);
      if s[0] == sep then [[]] + rest
      else [[s[0]] + rest[0]] + rest[1..]
  }

  /** There is one more piece than there are separators, and no piece contains
      the separator. */
  lemma {:induction false} SplitPieces(s: string, sep: char)
    ensures |Split(s, sep)| == Count(s, sep) + 1
    ensures forall i :: 0 <= i < |Split(s, sep)| ==> sep !in Split(s, sep)[i]
  {
    if s != [] {
      SplitPieces(s[1..], sep);
      var rest := Split(s[1..], sep);
      if s[0] != sep {
        assert forall i :: 1 <= i < |rest| ==> ([[s[0]] + rest[0]] + rest[1..])[i] == rest[i];
      } else {
        assert forall i :: 1 <= i < |rest| + 1 ==> ([[]] + rest)[i] == rest[i - 1];
      }
    }
  }

  /** sep.join(parts): the inverse of Split. */
  function Join(parts: seq<string>, sep: char): string
    requires |parts| >= 1
  {
    if |parts| == 1 then parts[0] else parts[0] + [sep] + Join(parts[1..], sep)
  }

  /** Joining the pieces of a split gives back the original string. */
  lemma {:induction false} JoinSplit(s: string, sep: char)
    ensures Join(Split(s, sep), sep) == s
  {
    if s != [] {
      var rest := Split(s[1..], sep);
      JoinSplit(s[1..], sep);
      if s[0] != sep {
        if |rest| > 1 {
          assert ([[s[0]] + rest[0]] + rest[1..])[1..] == rest[1..];
        }
      } else {
        assert ([[]] + rest)[1..] == rest;
      }
    }
  }

  /** A string without the separator splits into itself alone. */
  lemma {:induction false} SplitNone(a: string, sep: char)
    requires sep !in a
    ensures Split(a, sep) == [a]
  {
    if a != [] {
      assert a[0] != sep;
      SplitNone(a[1..], sep);
      assert [a[0]] + a[1..] == a;
    }
  }

  /** A separator-free head is the first piece; the rest is the split of the tail. */
  lemma {:induction false} SplitAfter(a: string, b: string, sep: char)
    requires sep !in a
    ensures Split(a + [sep] + b, sep) == [a] + Split(b, sep)
  {
    if a == [] {
      assert ([sep] + b)[1..] == b;
    } else {
      assert (a + [sep] + b)[1..] == a[1..] + [sep] + b;
      assert a[0] != sep;
      SplitAfter(a[1..], b, sep);
      assert [a[0]] + a[1..] == a;
    }
  }

  /** Splitting the join of separator-free pieces gives the pieces back. */
  lemma {:induction false} SplitJoin(parts: seq<string>, sep: char)
    requires |parts| >= 1
    requires forall i :: 0 <= i < |parts| ==> sep !in parts[i]
    ensures Split(Join(parts, sep), sep) == parts
  {
    if |parts| == 1 {
      SplitNone(parts[0], sep);
    } else {
      SplitJoin(parts[1..], sep);
      SplitAfter(parts[0], Join(parts[1..], sep), sep);
      assert [parts[0]] + parts[1..] == parts;
    }
  }

  /** Two whitespace characters meet at position k. */
  predicate DoubleSpaceAt(s: string, k: nat)
    requires k + 1 < |s|
  {
    IsSpace(s[k]) && IsSpace(s[k + 1])
  }

  /** No two adjacent whitespace characters anywhere in s. */
  predicate NoDoubleSpace(s: string) {
    forall k :: 0 <= k < |s| - 1 ==> !DoubleSpaceAt(s, k)
  }

  /** The leftmost position at or after k where two whitespace characters meet. */
  function RunStart(s: string, k: nat): (r: Option<nat>)
    requires k <= |s|
    ensures r.Some? ==> k <= r.value && r.value + 1 < |s| && DoubleSpaceAt(s, r.value)
    decreases |s| - k
  {
    if k + 1 >= |s| then None
    else if DoubleSpaceAt(s, k) then Some(k)
    else RunStart(s, k + 1)
  }

  /** No two whitespace characters meet between k and the position found. */
  lemma {:induction false} RunStartFirst(s: string, k: nat, j: nat)
    requires k <= j && j + 1 < |s|
    requires RunStart(s, k).None? || j < RunStart(s, k).value
    ensures !DoubleSpaceAt(s, j)
    decreases j - k
  {
    if k < j {
      RunStartFirst(s, k + 1, j);
    }
  }

  /** The end of the whitespace run that starts at j (greedy). */
  function RunEnd(s: string, j: nat): (e: nat)
    requires j <= |s|
    ensures j <= e <= |s|
    decreases |s| - j
  {
    if j < |s| && IsSpace(s[j]) then RunEnd(s, j + 1) else j
  }

  /** Everything from j up to the end of the run is whitespace, and the
      character after it is not. */
  lemma {:induction false} RunEndSpec(s: string, j: nat)
    requires j <= |s|
    ensures AllSpace(s[j..RunEnd(s, j)])
    ensures RunEnd(s, j) == |s| || !IsSpace(s[RunEnd(s, j)])
    decreases |s| - j
  {
    if j < |s| && IsSpace(s[j]) {
      RunEndSpec(s, j + 1);
      var e := RunEnd(s, j + 1);
      assert s[j..e] == [s[j]] + s[j + 1..e];
    }
  }

  /** re.split(r'\s{2,}', s, 1): cut once at the leftmost run of two or more
      whitespace characters, the whole run removed. */
  function SplitAtSpaceRun(s: string): (parts: seq<string>)
    ensures |parts| == 1 || |parts| == 2
  {
    match RunStart(s, 0)
    case None => [s]
    case Some(i) => [s[..i], s[RunEnd(s, i)..]]
  }

  /** One piece when there is no run of two whitespace characters; otherwise
      the text before the leftmost run, which has no such run and does not end
      in whitespace, and the text after the whole (greedy) run, which does not
      start with whitespace. */
  lemma SplitAtSpaceRunSpec(s: string)
    ensures var parts := SplitAtSpaceRun(s);
      |parts| == 1 ==> parts[0] == s && NoDoubleSpace(s)
    ensures var parts := SplitAtSpaceRun(s);
      |parts| == 2 ==>
      var a, b := parts[0], parts[1];
      && |a| + 2 + |b| <= |s|
      && s[..|a|] == a && s[|s| - |b|..] == b
      && AllSpace(s[|a|..|s| - |b|])
      && NoDoubleSpace(a) && (a == [] || !IsSpace(a[|a| - 1]))
      && (b == [] || !IsSpace(b[0]))
  {
    match RunStart(s, 0)
    case None =>
      forall k | 0 <= k < |s| - 1 ensures !DoubleSpaceAt(s, k) {
        RunStartFirst(s, 0, k);
      }
    case Some(i) =>
      var e := RunEnd(s, i);
      RunEndSpec(s, i);
      var a := s[..i];
      assert s[i..e] == s[i..|s| - |s[e..]|];
      assert NoDoubleSpace(a) by {
        forall k | 0 <= k < |a| - 1 ensures !DoubleSpaceAt(a, k) {
          RunStartFirst(s, 0, k);
        }
      }
      assert a == [] || !IsSpace(a[|a| - 1]) by {
        if a != [] {
          RunStartFirst(s, 0, i - 1);
        }
      }
  }

  /** Text that has no two adjacent whitespace characters and does not end in
      one, then a run of two or more whitespace characters, then text that does
      not start with one: the cut falls exactly at that run. */
  lemma SplitAtSpaceRunAt(a: string, gap: string, b: string)
    requires NoDoubleSpace(a) && (a == [] || !IsSpace(a[|a| - 1]))
    requires |gap| >= 2 && AllSpace(gap)
    requires b == [] || !IsSpace(b[0])
    ensures SplitAtSpaceRun(a + gap + b) == [a, b]
  {
    var s := a + gap + b;
    var n := |a| + |gap|;
    assert s[..|a|] == a && s[n..] == b;
    assert forall k :: |a| <= k < n ==> s[k] == gap[k - |a|];
    assert DoubleSpaceAt(s, |a|);
    var r := RunStart(s, 0);
    forall j | 0 <= j < |a| ensures !DoubleSpaceAt(s, j) {
      assert s[j] == a[j];
      if j + 1 < |a| {
        assert s[j + 1] == a[j + 1] && !DoubleSpaceAt(a, j);
      }
    }
    if r.None? || |a| < r.value {
      RunStartFirst(s, 0, |a|);
      assert false;
    }
    var e := RunEnd(s, |a|);
    RunEndSpec(s, |a|);
    assert e == n;
  }
}

=== FILE: sales.dfy ===
/** analyze_sales up to the grand totals: the CSV rows after the header are read
    one by one; a row that is short or whose price, date or recorded profit does
    not parse is skipped; every other row adds its price and its resolved profit
    to its month; the months are then summed in ascending key order. */
module Sales {
  import opened PyText
  import opened PyNumbers
  import opened StringOrder
  import opened Gains

  /** One CSV record, already split into cells. */
  type Row = seq<string>

  /** What an accepted row contributes: its month key, its price and its profit. */
  datatype Sale = Sale(month: string, price: real, profit: real)

  /** The two per-month accumulators. */
  datatype Column = Price | Profit

  function Amount(s: Sale, c: Column): real
  {
    match c
    case Price => s.price
    case Profit => s.profit
  }

  /** The price cell with every character but digits and dots removed: 0.0 when
      nothing is left, None (the ValueError that drops the row) when what is left
      is not a number. */
  function ParsePrice(cell: string): Option<real>
  {
    var cleaned := KeepDigitsAndDots(cell);
    if cleaned == [] then Some(0.0) else ParseFloat(cleaned)
  }

  /** The "YYYY-MM" key of a date cell split on '-': str(int(year)) and the month
      as int, zero-padded to two characters. None when there are fewer than three
      parts or the year or month is not an integer; the day is not looked at and
      the month is not range-checked. */
  function MonthKey(date: string): Option<string>
  {
    var parts := Split(date, '-');
    if |parts| < 3 then None
    else
      match (ParseInt(parts[0]), ParseInt(parts[1]))
      case (Some(year), Some(month)) => Some(IntToString(year) + "-" + ZeroPad2(month))
      case _ => None
  }

  /** str(int(float(quantity))): the rule key a quantity is looked up under. */
  function QuantityKey(quantity: string): Option<string>
  {
    match ParseFloat(quantity)
    case None => None
    case Some(x) => Some(IntToString(Truncate(x)))
  }

  /** The profit of a row, first match wins: a non-empty cleaned profit cell (its
      value, or None - the ValueError that drops the row - when it is not a
      number); otherwise 0 for a zero price; otherwise the product's rule for the
      truncated quantity; otherwise 0. */
  function ResolveProfit(profitCell: string, price: real, product: string, quantity: string, gains: GainsMap): Option<real>
  {
    var cleaned := KeepDigitsAndDots(profitCell);
    if cleaned != [] then ParseFloat(cleaned)
    else if price == 0.0 then Some(0.0)
    else if product in gains then
      match QuantityKey(quantity)
      case Some(key) => if key in gains[product] then Some(gains[product][key]) else Some(0.0)
      case None => Some(0.0)
    else Some(0.0)
  }

  /** The sale a data row stands for, or None when the row is skipped. */
  function RowSale(row: Row, gains: GainsMap): Option<Sale>
  {
    if |row| < 5 then None
    else
      var product := Strip(row[0]);
      var quantity := Strip(Without(Without(row[1], '"'), ','));
      match ParsePrice(row[2])
      case None => None
      case Some(price) =>
        match MonthKey(row[3])
        case None => None
        case Some(month) =>
          match ResolveProfit(row[4], price, product, quantity, gains)
          case None => None
          case Some(profit) => Some(Sale(month, price, profit))
  }

  /** The price cell is readable exactly when its digits and dots are nothing
      at all (price 0) or a number with at most one dot and at least one digit;
      a price is never negative. */
  lemma ParsePriceSpec(cell: string)
    ensures var c := KeepDigitsAndDots(cell);
      ParsePrice(cell).Some? <==> c == [] || (Count(c, '.') <= 1 && Count(c, '.') < |c|)
    ensures KeepDigitsAndDots(cell) == [] ==> ParsePrice(cell) == Some(0.0)
    ensures ParsePrice(cell).Some? ==> ParsePrice(cell).value >= 0.0
  {
    CleanDecimal(KeepDigitsAndDots(cell));
  }

  /** A date "<year>-<month>-<rest>" whose year and month are runs of digits
      (leading zeros allowed, as int() reads them) gives the key of the year's
      value and the zero-padded month, whatever the rest and whatever the month. */
  lemma MonthKeyShape(y: string, m: string, rest: string)
    requires y != [] && AllDigits(y) && m != [] && AllDigits(m)
    ensures MonthKey(y + "-" + m + "-" + rest) ==
      Some(NatToString(DigitsValue(y)) + "-" + ZeroPad2(DigitsValue(m)))
  {
    NoDash(y);
    NoDash(m);
    assert y + "-" + m + "-" + rest == y + ['-'] + (m + ['-'] + rest);
    SplitAfter(y, m + ['-'] + rest, '-');
    SplitAfter(m, rest, '-');
    ParseIntDigits(y);
    ParseIntDigits(m);
  }

  /** A year followed by one of the separators \x1c..\x1f drops the row: int()
      does not skip them, although str.strip() would. */
  lemma MonthKeySeparatorYear(y: string, c: char, m: string, rest: string)
    requires y != [] && AllDigits(y) && 28 <= c as int <= 31
    ensures MonthKey(y + [c] + "-" + m + "-" + rest) == None
  {
    var yc := y + [c];
    assert '-' !in yc by { NoDash(y); }
    assert y + [c] + "-" + m + "-" + rest == yc + ['-'] + (m + "-" + rest);
    SplitAfter(yc, m + "-" + rest, '-');
    ParseIntSeparator(y, c);
  }

  lemma NoDash(ds: string)
    requires AllDigits(ds)
    ensures '-' !in ds
  {
    assert forall i :: 0 <= i < |ds| ==> IsDigit(ds[i]);
  }

  /** A date with fewer than two '-' has fewer than three parts and drops the row. */
  lemma MonthKeyNeedsThreeParts(date: string)
    requires Count(date, '-') < 2
    ensures MonthKey(date) == None
  {
    SplitPieces(date, '-');
  }

  /** Every key the row loop produces has a year and a month of at least 0,
      since the parts of a date split on '-' hold no '-'; such a key can be
      listed by the totals loop exactly when its month is at most 12. */
  lemma MonthKeyListedIff(date: string)
    requires MonthKey(date).Some?
    ensures var parts := Split(date, '-');
      && |parts| >= 3
      && ParseInt(parts[0]).Some? && ParseInt(parts[0]).value >= 0
      && ParseInt(parts[1]).Some? && ParseInt(parts[1]).value >= 0
    ensures Listable(MonthKey(date).value) <==> ParseInt(Split(date, '-')[1]).value <= 12
  {
    var parts := Split(date, '-');
    SplitPieces(date, '-');
    ParseIntNoMinus(parts[0]);
    ParseIntNoMinus(parts[1]);
    MonthKeyListable(ParseInt(parts[0]).value, ParseInt(parts[1]).value);
  }

  /** A key built from a year and a month can be listed by the totals loop
      exactly when the year is not negative and the month lies in 0..12: a
      negative year or month adds a '-' and breaks the two-way unpack, a month
      above 12 is past the last name, and month 0 wraps round to the last. */
  lemma MonthKeyListable(year: int, month: int)
    ensures Listable(IntToString(year) + "-" + ZeroPad2(month)) <==> year >= 0 && 0 <= month <= 12
  {
    if year < 0 {
      NegativeYear(year, month);
    } else if month < 0 {
      NegativeMonth(year, month);
    } else {
      ListableUnsigned(year, month);
    }
  }

  lemma NegativeYear(year: int, month: int)
    requires year < 0
    ensures !Listable(IntToString(year) + "-" + ZeroPad2(month))
  {
    var u, v := NatToString(-year), ZeroPad2(month);
    assert IntToString(year) + "-" + v == [] + "-" + u + "-" + v;
    ThreeParts(u, v);
  }

  lemma NegativeMonth(year: int, month: int)
    requires month < 0
    ensures !Listable(IntToString(year) + "-" + ZeroPad2(month))
  {
    var w, v := IntToString(year), NatToString(-month);
    assert ZeroPad2(month) == "-" + v;
    assert w + "-" + ("-" + v) == w + "-" + [] + "-" + v;
    ThreeParts([], v);
  }

  /** Two '-' in a key leave at least three parts, which cannot be unpacked. */
  lemma ThreeParts(u: string, v: string)
    requires AllDigits(u)
    ensures forall w :: !Listable(w + "-" + u + "-" + v)
  {
    NoDash(u);
    forall w ensures !Listable(w + "-" + u + "-" + v) {
      var key := w + "-" + u + "-" + v;
      SplitPieces(key, '-');
      assert key[|w|] == '-' && key[|w| + 1 + |u|] == '-';
      CountConcat(w + "-", u + "-" + v, '-');
      CountConcat(w, "-", '-');
      CountConcat(u + "-", v, '-');
      CountConcat(u, "-", '-');
      assert Count("-", '-') == 1;
      assert key == (w + "-") + (u + "-" + v);
      assert u + "-" + v == (u + "-") + v;
    }
  }

  lemma ListableUnsigned(year: nat, month: nat)
    ensures Listable(NatToString(year) + "-" + ZeroPad2(month)) <==> month <= 12
  {
    var y, m := NatToString(year), ZeroPad2(month);
    ZeroPad2RoundTrip(month);
    NoDash(y);
    PaddedNoDash(month);
    SplitNone(m, '-');
    assert y + "-" + m == y + ['-'] + m;
    SplitAfter(y, m, '-');
  }

  lemma PaddedNoDash(month: nat)
    ensures '-' !in ZeroPad2(month)
  {
    var m := ZeroPad2(month);
    ZeroPad2RoundTrip(month);
    assert m[0] != '-' by {
      if month < 10 { assert m[0] == '0'; } else { assert m == NatToString(month); }
    }
    assert m == [m[0]] + m[1..];
  }

  /** The profit fallback chain. A non-empty cleaned profit cell decides the
      profit (or drops the row) whatever the price, product, quantity and gain
      list; otherwise the profit is never missing, and it is 0 for a zero price,
      the product's rule under the truncated quantity when there is one, and 0
      in every other case. */
  lemma ProfitChain(profitCell: string, price: real, product: string, quantity: string, gains: GainsMap,
                    price': real, product': string, quantity': string, gains': GainsMap)
    ensures var c := KeepDigitsAndDots(profitCell);
      c != [] ==>
        && ResolveProfit(profitCell, price, product, quantity, gains) == ParseFloat(c)
        && ResolveProfit(profitCell, price, product, quantity, gains) == ResolveProfit(profitCell, price', product', quantity', gains')
    ensures var c := KeepDigitsAndDots(profitCell);
      var r := ResolveProfit(profitCell, price, product, quantity, gains);
      c == [] ==>
        && r.Some?
        && (price == 0.0 ==> r == Some(0.0))
        && (price != 0.0 && product in gains && QuantityKey(quantity).Some? && QuantityKey(quantity).value in gains[product] ==>
              r == Some(gains[product][QuantityKey(quantity).value]))
        && (price != 0.0 && (product !in gains || QuantityKey(quantity).None? || QuantityKey(quantity).value !in gains[product]) ==>
              r == Some(0.0))
  {
  }

  /** A recorded profit is taken as it is, even when it is zero and a rule for
      the product and quantity exists. */
  lemma RecordedZeroWins(price: real, product: string, quantity: string, gains: GainsMap)
    ensures ResolveProfit("0", price, product, quantity, gains) == Some(0.0)
  {
    assert KeepDigitsAndDots("0") == "0";
    assert AllDigits("0");
  }

  /** The quantity "n", "n." or "n.<digits>" is looked up under the key "n". */
  lemma QuantityKeyTruncates(n: nat, frac: string)
    requires AllDigits(frac)
    ensures QuantityKey(NatToString(n)) == Some(NatToString(n))
    ensures QuantityKey(NatToString(n) + "." + frac) == Some(NatToString(n))
  {
    TruncatedKey(n, frac);
  }

  /** With an empty profit cell and a non-zero price, a product with a rule for
      n takes that rule's gain for the quantities "n" and "n.<digits>" alike. */
  lemma ProfitFromRule(profitCell: string, price: real, product: string, n: nat, frac: string, gains: GainsMap)
    requires KeepDigitsAndDots(profitCell) == [] && price != 0.0
    requires AllDigits(frac)
    requires product in gains && NatToString(n) in gains[product]
    ensures ResolveProfit(profitCell, price, product, NatToString(n), gains) == Some(gains[product][NatToString(n)])
    ensures ResolveProfit(profitCell, price, product, NatToString(n) + "." + frac, gains) == Some(gains[product][NatToString(n)])
  {
    QuantityKeyTruncates(n, frac);
  }

  /** The skip rules: a data row is dropped exactly when it has fewer than five
      cells, its price, its date or its non-empty cleaned profit does not parse;
      the product and the quantity never drop a row. A kept row carries the
      month key of its date, its price and its resolved profit. */
  lemma RowKept(row: Row, gains: GainsMap)
    ensures RowSale(row, gains).Some? <==>
      && |row| >= 5
      && ParsePrice(row[2]).Some?
      && MonthKey(row[3]).Some?
      && (KeepDigitsAndDots(row[4]) == [] || ParseFloat(KeepDigitsAndDots(row[4])).Some?)
    ensures RowSale(row, gains).Some? ==>
      && RowSale(row, gains).value.month == MonthKey(row[3]).value
      && RowSale(row, gains).value.price == ParsePrice(row[2]).value
      && RowSale(row, gains).value.price >= 0.0
      && Some(RowSale(row, gains).value.profit) ==
           ResolveProfit(row[4], ParsePrice(row[2]).value, Strip(row[0]), Strip(Without(Without(row[1], '"'), ',')), gains)
  {
    if |row| >= 5 {
      ParsePriceSpec(row[2]);
      var price := ParsePrice(row[2]);
      if price.Some? {
        var product, quantity := Strip(row[0]), Strip(Without(Without(row[1], '"'), ','));
        ProfitChain(row[4], price.value, product, quantity, gains, price.value, product, quantity, gains);
      }
    }
  }

  /** RowSale of each row, in row order. */
  function Outcomes(rows: seq<Row>, gains: GainsMap): (outcomes: seq<Option<Sale>>)
    ensures |outcomes| == |rows|
  {
    if rows == [] then [] else Outcomes(rows[..|rows| - 1], gains) + [RowSale(rows[|rows| - 1], gains)]
  }

  /** The sales of the rows that were not skipped, in order. */
  function Kept(outcomes: seq<Option<Sale>>): seq<Sale>
  {
    if outcomes == [] then []
    else
      var earlier := Kept(outcomes[..|outcomes| - 1]);
      match outcomes[|outcomes| - 1]
      case None => earlier
      case Some(s) => earlier + [s]
  }

  /** The sales of the accepted rows, in row order. */
  function Accepted(rows: seq<Row>, gains: GainsMap): seq<Sale>
  {
    Kept(Outcomes(rows, gains))
  }

  function Get(m: map<string, real>, k: string): real
  {
    if k in m then m[k] else 0.0
  }

  /** The per-month accumulator of one column after the given sales
      (defaultdict(float) with +=). */
  function ByMonth(sales: seq<Sale>, c: Column): map<string, real>
  {
    if sales == [] then map[]
    else
      var m := ByMonth(sales[..|sales| - 1], c);
      var s := sales[|sales| - 1];
      m[s.month := Get(m, s.month) + Amount(s, c)]
  }

  /** The sum of one column over the given sales. */
  function Total(sales: seq<Sale>, c: Column): real
  {
    if sales == [] then 0.0 else Total(sales[..|sales| - 1], c) + Amount(sales[|sales| - 1], c)
  }

  /** The months the given sales fall in. */
  function Months(sales: seq<Sale>): set<string>
  {
    set s | s in sales :: s.month
  }

  /** The sum of m over the keys ks, in the order of ks. */
  function SumOver(ks: seq<string>, m: map<string, real>): real
  {
    if ks == [] then 0.0 else SumOver(ks[..|ks| - 1], m) + Get(m, ks[|ks| - 1])
  }

  /** Both accumulators have exactly one key per month that some accepted sale
      falls in, whatever the column: price and profit are added together or not
      at all. */
  lemma {:induction false} ByMonthKeys(sales: seq<Sale>, c: Column)
    ensures ByMonth(sales, c).Keys == Months(sales)
  {
    if sales != [] {
      var init := sales[..|sales| - 1];
      ByMonthKeys(init, c);
      assert sales == init + [sales[|sales| - 1]];
      assert Months(sales) == Months(init) + {sales[|sales| - 1].month};
    }
  }

  /** Summing the accumulator over any repetition-free list of keys that covers
      its months gives the column total of the sales. */
  lemma {:induction false} ByMonthTotal(sales: seq<Sale>, c: Column, ks: seq<string>)
    requires Distinct(ks)
    requires forall k :: k in ByMonth(sales, c) ==> k in ks
    ensures SumOver(ks, ByMonth(sales, c)) == Total(sales, c)
  {
    if sales == [] {
      SumOverEmpty(ks);
    } else {
      var init := sales[..|sales| - 1];
      var s := sales[|sales| - 1];
      var m := ByMonth(init, c);
      assert forall k :: k in m ==> k in ByMonth(sales, c);
      ByMonthTotal(init, c, ks);
      assert s.month in ByMonth(sales, c);
      SumOverAdd(ks, m, s.month, Amount(s, c));
    }
  }

  lemma {:induction false} SumOverEmpty(ks: seq<string>)
    ensures SumOver(ks, map[]) == 0.0
  {
    if ks != [] {
      SumOverEmpty(ks[..|ks| - 1]);
    }
  }

  /** Adding x under one key of a repetition-free key list adds x to the sum. */
  lemma {:induction false} SumOverAdd(ks: seq<string>, m: map<string, real>, k: string, x: real)
    requires Distinct(ks) && k in ks
    ensures SumOver(ks, m[k := Get(m, k) + x]) == SumOver(ks, m) + x
  {
    var init := ks[..|ks| - 1];
    var last := ks[|ks| - 1];
    assert Distinct(init);
    if last == k {
      assert k !in init by {
        forall i | 0 <= i < |init| ensures init[i] != k {
          assert init[i] == ks[i];
        }
      }
      SumOverOther(init, m, k, Get(m, k) + x);
    } else {
      assert k in init by {
        var i :| 0 <= i < |ks| && ks[i] == k;
        assert init[i] == k;
      }
      SumOverAdd(init, m, k, x);
    }
  }

  lemma SumOverStep(ks: seq<string>, m: map<string, real>, j: nat)
    requires j < |ks|
    ensures SumOver(ks[..j + 1], m) == SumOver(ks[..j], m) + Get(m, ks[j])
  {
    assert ks[..j + 1][..j] == ks[..j];
  }

  /** Changing a key outside the list does not change the sum. */
  lemma {:induction false} SumOverOther(ks: seq<string>, m: map<string, real>, k: string, v: real)
    requires k !in ks
    ensures SumOver(ks, m[k := v]) == SumOver(ks, m)
  {
    if ks != [] {
      assert ks[..|ks| - 1] + [ks[|ks| - 1]] == ks;
      SumOverOther(ks[..|ks| - 1], m, k, v);
    }
  }

  /** The data analyze_sales produces for its report. */
  datatype Report = Report(
    monthlyPrices: map<string, real>,
    monthlyEarnings: map<string, real>,
    months: seq<string>,
    totalPrices: real,
    totalEarnings: real)

  /** r is the report of the given accepted sales: the two accumulators, their
      common key set in ascending order, and the two grand totals, which equal
      the column sums over the accepted sales. */
  ghost predicate Summarises(r: Report, sales: seq<Sale>)
  {
    && r.monthlyPrices == ByMonth(sales, Price)
    && r.monthlyEarnings == ByMonth(sales, Profit)
    && r.monthlyPrices.Keys == Months(sales) && r.monthlyEarnings.Keys == Months(sales)
    && Ascending(r.months)
    && (forall k :: k in r.months <==> k in Months(sales))
    && r.totalPrices == Total(sales, Price)
    && r.totalEarnings == Total(sales, Profit)
  }

  /** The loop over the data rows: a skipped row changes nothing, an accepted one
      adds its price and its profit to its month. */
  method AccumulateMonths(data: seq<Row>, gains: GainsMap) returns (monthlyPrices: map<string, real>, monthlyEarnings: map<string, real>)
    ensures monthlyPrices == ByMonth(Accepted(data, gains), Price)
    ensures monthlyEarnings == ByMonth(Accepted(data, gains), Profit)
  {
    monthlyPrices := map[];
    monthlyEarnings := map[];
    for i := 0 to |data|
      invariant monthlyPrices == ByMonth(Accepted(data[..i], gains), Price)
      invariant monthlyEarnings == ByMonth(Accepted(data[..i], gains), Profit)
    {
      assert data[..i + 1] == data[..i] + [data[i]];
      var sale := RowSale(data[i], gains);
      AcceptedSnoc(data[..i], data[i], gains);
      monthlyPrices, monthlyEarnings := AddSale(monthlyPrices, monthlyEarnings, Accepted(data[..i], gains), sale);
    }
    assert data[..|data|] == data;
  }

  /** The sale of an outcome, if any, as a list. */
  function SaleList(outcome: Option<Sale>): (sales: seq<Sale>)
    ensures |sales| <= 1
  {
    match outcome
    case None => []
    case Some(s) => [s]
  }

  /** A row appended to the data adds its sale, if it has one, to the accepted sales. */
  lemma AcceptedSnoc(before: seq<Row>, row: Row, gains: GainsMap)
    ensures Accepted(before + [row], gains) == Accepted(before, gains) + SaleList(RowSale(row, gains))
  {
    assert (before + [row])[..|before|] == before;
  }

  /** The body of the loop for one row outcome: a skipped row leaves both
      accumulators alone, a sale adds its price and its profit under its month. */
  method AddSale(monthlyPrices: map<string, real>, monthlyEarnings: map<string, real>, ghost sales: seq<Sale>, sale: Option<Sale>)
    returns (prices: map<string, real>, earnings: map<string, real>)
    requires monthlyPrices == ByMonth(sales, Price)
    requires monthlyEarnings == ByMonth(sales, Profit)
    ensures prices == ByMonth(sales + SaleList(sale), Price)
    ensures earnings == ByMonth(sales + SaleList(sale), Profit)
  {
    prices, earnings := monthlyPrices, monthlyEarnings;
    if sale.Some? {
      var s := sale.value;
      assert SaleList(sale) == [s];
      ByMonthSnoc(sales, s, Price);
      ByMonthSnoc(sales, s, Profit);
      prices := prices[s.month := Get(prices, s.month) + s.price];
      earnings := earnings[s.month := Get(earnings, s.month) + s.profit];
    } else {
      assert sales + [] == sales;
    }
  }

  /** One more sale adds its amount to its own month and leaves the others alone. */
  lemma ByMonthSnoc(sales: seq<Sale>, s: Sale, c: Column)
    ensures var m := ByMonth(sales, c);
      ByMonth(sales + [s], c) == m[s.month := Get(m, s.month) + Amount(s, c)]
  {
    assert (sales + [s])[..|sales|] == sales;
  }

  /** The totals loop can list the month: the key splits on '-' into exactly
      the two parts it is unpacked into, and the month part is an integer m for
      which meses[m - 1] is in range among the twelve names (-11 <= m <= 12, a
      negative index counting from the end). Anything else raises an exception
      that nothing catches. */
  predicate Listable(monthKey: string)
  {
    var parts := Split(monthKey, '-');
    && |parts| == 2
    && match ParseInt(parts[1])
       case None => false
       case Some(m) => -11 <= m <= 12
  }

  /** Every key of the list can be listed. */
  predicate AllListable(ks: seq<string>)
  {
    ks == [] || (AllListable(ks[..|ks| - 1]) && Listable(ks[|ks| - 1]))
  }

  lemma {:induction false} AllListableAt(ks: seq<string>, i: nat)
    requires AllListable(ks) && i < |ks|
    ensures Listable(ks[i])
  {
    if i < |ks| - 1 {
      AllListableAt(ks[..|ks| - 1], i);
    }
  }

  /** How analyze_sales ends: the file has no header row (next() raises an
      uncaught StopIteration), the totals loop raises at a month key it cannot
      list, or the report is complete. */
  datatype Analysis = NoHeader | Failed(monthKey: string) | Done(report: Report)

  /** a is the outcome of analyze_sales over the accepted sales: the report when
      every month can be listed; otherwise a failure at the smallest month that
      cannot. */
  ghost predicate Describes(a: Analysis, sales: seq<Sale>)
  {
    match a
    case NoHeader => false
    case Done(r) => Summarises(r, sales) && forall k :: k in Months(sales) ==> Listable(k)
    case Failed(k) =>
      && k in Months(sales) && !Listable(k)
      && forall k' :: k' in Months(sales) && Less(k', k) ==> Listable(k')
  }

  /** analyze_sales on the rows of the sales file: the first row is the header
      and is never aggregated. */
  method AnalyzeSales(rows: seq<Row>, gains: GainsMap) returns (analysis: Analysis)
    ensures rows == [] ==> analysis == NoHeader
    ensures rows != [] ==> Describes(analysis, Accepted(rows[1..], gains))
  {
    if rows == [] {
      return NoHeader;
    }
    var data := rows[1..];
    var monthlyPrices, monthlyEarnings := AccumulateMonths(data, gains);
    ghost var sales := Accepted(data, gains);
    ByMonthKeys(sales, Price);
    ByMonthKeys(sales, Profit);

    var months := Sorted(monthlyPrices.Keys);
    var failedAt, totalPrices, totalEarnings := GrandTotals(months, monthlyPrices, monthlyEarnings);
    if failedAt.Some? {
      var j := failedAt.value;
      forall k | k in Months(sales) && Less(k, months[j]) ensures Listable(k) {
        var i :| 0 <= i < |months| && months[i] == k;
        AscendingIndex(months, i, j);
        AllListableAt(months[..j], i);
      }
      return Failed(months[j]);
    }
    forall k | k in Months(sales) ensures Listable(k) {
      var i :| 0 <= i < |months| && months[i] == k;
      AllListableAt(months, i);
    }
    AscendingDistinct(months);
    ByMonthTotal(sales, Price, months);
    ByMonthTotal(sales, Profit, months);
    analysis := Done(Report(monthlyPrices, monthlyEarnings, months, totalPrices, totalEarnings));
  }

  /** The loop over the sorted months: each month is listed and its two sums are
      added to the grand totals; it stops at the first month that cannot be
      listed, whose position it returns. */
  method GrandTotals(months: seq<string>, monthlyPrices: map<string, real>, monthlyEarnings: map<string, real>)
    returns (failedAt: Option<nat>, totalPrices: real, totalEarnings: real)
    requires forall k :: k in months ==> k in monthlyPrices && k in monthlyEarnings
    ensures failedAt.None? ==>
      && AllListable(months)
      && totalPrices == SumOver(months, monthlyPrices)
      && totalEarnings == SumOver(months, monthlyEarnings)
    ensures failedAt.Some? ==>
      && failedAt.value < |months| && !Listable(months[failedAt.value])
      && AllListable(months[..failedAt.value])
  {
    totalPrices := 0.0;
    totalEarnings := 0.0;
    for j := 0 to |months|
      invariant totalPrices == SumOver(months[..j], monthlyPrices)
      invariant totalEarnings == SumOver(months[..j], monthlyEarnings)
      invariant AllListable(months[..j])
    {
      var listed;
      listed, totalPrices, totalEarnings := VisitMonth(months, j, monthlyPrices, monthlyEarnings, totalPrices, totalEarnings);
      if !listed {
        return Some(j), totalPrices, totalEarnings;
      }
    }
    assert months[..|months|] == months;
    failedAt := None;
  }

  /** One pass of the loop over the sorted months: the month at position j is
      listed and, when that succeeds, its two sums are added to the totals. */
  method VisitMonth(months: seq<string>, j: nat, monthlyPrices: map<string, real>, monthlyEarnings: map<string, real>,
                    pricesBefore: real, earningsBefore: real)
    returns (listed: bool, totalPrices: real, totalEarnings: real)
    requires j < |months| && months[j] in monthlyPrices && months[j] in monthlyEarnings
    requires pricesBefore == SumOver(months[..j], monthlyPrices)
    requires earningsBefore == SumOver(months[..j], monthlyEarnings)
    requires AllListable(months[..j])
    ensures listed == Listable(months[j])
    ensures listed ==> AllListable(months[..j + 1])
    ensures listed ==> totalPrices == SumOver(months[..j + 1], monthlyPrices)
    ensures listed ==> totalEarnings == SumOver(months[..j + 1], monthlyEarnings)
  {
    totalPrices, totalEarnings := pricesBefore, earningsBefore;
    var monthKey := months[j];
    listed := ListMonth(monthKey);
    if listed {
      SumOverStep(months, monthlyPrices, j);
      SumOverStep(months, monthlyEarnings, j);
      assert months[..j + 1] == months[..j] + [monthKey];
      totalPrices := totalPrices + monthlyPrices[monthKey];
      totalEarnings := totalEarnings + monthlyEarnings[monthKey];
    }
  }

  /** The unpack of a month key into year and month number and the lookup of
      the month's name: true when neither raises. */
  method ListMonth(monthKey: string) returns (listed: bool)
    ensures listed == Listable(monthKey)
  {
    var parts := Split(monthKey, '-');
    if |parts| != 2 {
      return false;
    }
    var monthNumber := ParseInt(parts[1]);
    listed := monthNumber.Some? && -11 <= monthNumber.value <= 12;
  }

  /** The program's entry point: the analysis runs only when the gain list was
      read, and comes to nothing when the sales file is missing. */
  method RunReport(gainsFile: Option<seq<string>>, salesFile: Option<seq<Row>>) returns (analysis: Option<Analysis>)
    ensures analysis.Some? <==> gainsFile.Some? && salesFile.Some?
    ensures analysis.Some? && salesFile.value == [] ==> analysis.value == NoHeader
    ensures analysis.Some? && salesFile.value != [] ==>
      Describes(analysis.value, Accepted(salesFile.value[1..], GainsOf(gainsFile.value)))
  {
    var gains := ParseGainsList(gainsFile);
    if gains.None? {
      return None;
    }
    if salesFile.None? {
      return None;
    }
    var a := AnalyzeSales(salesFile.value, gains.value);
    analysis := Some(a);
  }
}

=== FILE: sales_examples.dfy ===
/** Worked examples of the row rules on concrete cells. */
module SalesExamples {
  import opened PyText
  import opened PyNumbers
  import opened Sales

  lemma Digits2024()
    ensures NatToString(2024) == "2024"
  {
    assert NatToString(2) == "2";
    assert NatToString(20) == NatToString(2) + "0";
    assert NatToString(202) == NatToString(20) + "2";
    assert NatToString(2024) == NatToString(202) + "4";
  }

  lemma Value2024()
    ensures DigitsValue("2024") == 2024
  {
    var y := "2024";
    assert y[..3] == "202" && "202"[..2] == "20" && "20"[..1] == "2" && "2"[..0] == [];
    assert DigitsValue("2") == 2;
    assert DigitsValue("20") == 20;
    assert DigitsValue("202") == 202;
  }

  lemma Year2024()
    ensures "2024" != [] && AllDigits("2024")
    ensures NatToString(DigitsValue("2024")) == "2024"
  {
    Value2024();
    Digits2024();
  }

  /** A single-digit month is padded: "2024-3-07" falls in "2024-03". */
  lemma PaddedMonth()
    ensures MonthKey("2024-3-07") == Some("2024-03")
  {
    var date := "2024-3-07";
    assert date == "2024" + "-" + "3" + "-" + "07";
    assert "2024" + "-" + "03" == "2024-03";
    assert DigitsValue("3") == 3 by { assert "3"[..0] == []; }
    assert ZeroPad2(3) == "03";
    Year2024();
    MonthKeyShape("2024", "3", "07");
  }

  /** The usual form with a two-digit month: int() reads "03" as 3, and the
      key is "2024-03" again. */
  lemma TwoDigitMonth()
    ensures MonthKey("2024-03-07") == Some("2024-03")
  {
    var date := "2024-03-07";
    assert date == "2024" + "-" + "03" + "-" + "07";
    assert "2024" + "-" + "03" == "2024-03";
    assert DigitsValue("03") == 3 by {
      assert "03"[..1] == "0" && "0"[..0] == [];
    }
    assert ZeroPad2(3) == "03";
    Year2024();
    MonthKeyShape("2024", "03", "07");
  }

  /** A file-separator character after the year: str.strip() would remove it,
      int() does not, so "2024\x1c-03-07" has no month key and drops the row. */
  lemma SeparatorYear()
    ensures MonthKey("2024\U{1c}-03-07") == None
  {
    assert "2024\U{1c}-03-07" == "2024" + ['\U{1c}'] + "-" + "03" + "-" + "07";
    Year2024();
    MonthKeySeparatorYear("2024", '\U{1c}', "03", "07");
  }

  /** The row loop does not range-check the month: "2024-13-01" is accepted
      under "2024-13", and the totals loop then cannot list that key. */
  lemma MonthThirteen()
    ensures MonthKey("2024-13-01") == Some("2024-13")
    ensures !Listable("2024-13")
  {
    ThirteenKey();
    ThirteenUnlisted();
  }

  lemma ThirteenKey()
    ensures MonthKey("2024-13-01") == Some("2024-13")
  {
    var date := "2024-13-01";
    assert date == "2024" + "-" + "13" + "-" + "01";
    assert "2024" + "-" + "13" == "2024-13";
    assert DigitsValue("13") == 13 by {
      assert "13"[..1] == "1" && "1"[..0] == [];
    }
    Padded13();
    Year2024();
    MonthKeyShape("2024", "13", "01");
  }

  lemma Padded13()
    ensures ZeroPad2(13) == "13"
  {
    assert NatToString(1) == "1";
    assert NatToString(13) == NatToString(1) + "3";
  }

  lemma ThirteenUnlisted()
    ensures !Listable("2024-13")
  {
    assert "2024" + "-" + "13" == "2024-13";
    Digits2024();
    Padded13();
    KeyListable(2024, 13, "2024", "13");
  }

  /** The listing rule for a key whose year and padded month are spelled ys and ms. */
  lemma KeyListable(year: nat, month: int, ys: string, ms: string)
    requires NatToString(year) == ys && ZeroPad2(month) == ms
    ensures Listable(ys + "-" + ms) <==> 0 <= month <= 12
  {
    MonthKeyListable(year, month);
  }

  /** Month 0 is accepted as "2024-00" and is listed: its name lookup wraps
      round to the last month. */
  lemma MonthZero()
    ensures MonthKey("2024-0-15") == Some("2024-00")
    ensures Listable("2024-00")
  {
    ZeroKey();
    ZeroListed();
  }

  lemma ZeroKey()
    ensures MonthKey("2024-0-15") == Some("2024-00")
  {
    var date := "2024-0-15";
    assert date == "2024" + "-" + "0" + "-" + "15";
    assert "2024" + "-" + "00" == "2024-00";
    assert DigitsValue("0") == 0 by { assert "0"[..0] == []; }
    Padded0();
    Year2024();
    MonthKeyShape("2024", "0", "15");
  }

  lemma Padded0()
    ensures ZeroPad2(0) == "00"
  {
    assert NatToString(0) == "0";
  }

  lemma ZeroListed()
    ensures Listable("2024-00")
  {
    assert "2024" + "-" + "00" == "2024-00";
    Digits2024();
    Padded0();
    KeyListable(2024, 0, "2024", "00");
  }

  /** A month/day/year date has no '-' and drops the row. */
  lemma SlashDate()
    ensures MonthKey("03/07/2024") == None
  {
    CountZero("03/07/2024", '-');
    MonthKeyNeedsThreeParts("03/07/2024");
  }

  /** A price with two dots drops the row; one without any digit or dot is 0. */
  lemma PriceCells()
    ensures ParsePrice("1.2.3") == None
    ensures ParsePrice("N/A") == Some(0.0)
  {
    var t := "1.2.3";
    assert forall i :: 0 <= i < |t| ==> IsDigitOrDot(t[i]);
    KeepAllowed(t);
    assert Count(t, '.') == 2;
    ParsePriceSpec(t);
    assert KeepDigitsAndDots("N/A") == [];
    ParsePriceSpec("N/A");
  }

  /** A price written with a currency sign and a thousands separator: only its
      digits and its dot are kept, so "C$1,234.50" is 1234.5. */
  lemma CurrencyPrice()
    ensures ParsePrice("C$1,234.50") == Some(1234.5)
  {
    CurrencyCleaned();
    CurrencyValue();
  }

  lemma CurrencyCleaned()
    ensures KeepDigitsAndDots("C$1,234.50") == "1234.50"
  {
    assert "C$1,234.50" == "C$" + "1" + "," + "234.50";
    assert "1" + "234.50" == "1234.50";
    SignDropped();
    KeepChar('1');
    KeepChar(',');
    DigitsKept();
    KeepPieces("C$", "1", ",", "234.50");
  }

  lemma SignDropped()
    ensures KeepDigitsAndDots("C$") == []
  {
    assert "C$" == ['C'] + ['$'];
    KeepChar('C');
    KeepChar('$');
    KeepConcat(['C'], ['$']);
  }

  lemma DigitsKept()
    ensures KeepDigitsAndDots("234.50") == "234.50"
  {
    var t := "234.50";
    assert forall i :: 0 <= i < |t| ==> IsDigitOrDot(t[i]);
    KeepAllowed(t);
  }

  /** Junk, kept text, junk, kept text: the filter leaves the two kept parts. */
  lemma KeepPieces(a: string, b: string, c: string, d: string)
    requires KeepDigitsAndDots(a) == [] && KeepDigitsAndDots(b) == b
    requires KeepDigitsAndDots(c) == [] && KeepDigitsAndDots(d) == d
    ensures KeepDigitsAndDots(a + b + c + d) == b + d
  {
    KeepConcat(a + b + c, d);
    KeepConcat(a + b, c);
    KeepConcat(a, b);
    assert [] + b + [] == b;
  }

  lemma CurrencyValue()
    ensures ParseFloat("1234.50") == Some(1234.5)
  {
    var w, f := "1234", "50";
    assert w[..3] == "123" && "123"[..2] == "12" && "12"[..1] == "1" && "1"[..0] == [];
    assert DigitsValue(w) == 1234;
    assert f[..1] == "5" && "5"[..0] == [];
    assert DigitsValue(f) == 50;
    assert Pow10(2) == 100;
    assert AllDigits(w) && AllDigits(f);
    assert w + "." + f == "1234.50";
    ParseDecimalDotted(w, f);
    ParseFloatUnsigned("1234.50");
  }

  /** The quantity cell loses its quotes and its thousands separators:
      "\"1,000\"" is cleaned to "1000" and looked up under the key "1000". */
  lemma QuotedQuantity()
    ensures Without(Without("\"1,000\"", '"'), ',') == "1000"
    ensures QuantityKey(Strip(Without(Without("\"1,000\"", '"'), ','))) == Some("1000")
  {
    DropQuotes();
    DropCommas();
    StripTrimmed("1000");
    Digits1000();
    QuantityKeyTruncates(1000, "");
  }

  lemma Digits1000()
    ensures NatToString(1000) == "1000"
  {
    assert NatToString(1) == "1";
    assert NatToString(10) == NatToString(1) + "0";
    assert NatToString(100) == NatToString(10) + "0";
    assert NatToString(1000) == NatToString(100) + "0";
  }

  lemma DropQuotes()
    ensures Without("\"1,000\"", '"') == "1,000"
  {
    var inner := "1,000";
    assert "\"1,000\"" == ['"'] + inner + ['"'];
    assert '"' !in inner;
    DropAround(inner, '"');
  }

  lemma DropCommas()
    ensures Without("1,000", ',') == "1000"
  {
    var one, zeros := "1", "000";
    assert "1,000" == one + [','] + zeros;
    assert "1" + "000" == "1000";
    assert ',' !in one && ',' !in zeros;
    DropBetween(one, zeros, ',');
  }

  /** Removing c from c + a + c, where a holds no c, leaves a. */
  lemma DropAround(a: string, c: char)
    requires c !in a
    ensures Without([c] + a + [c], c) == a
  {
    var l := [c] + a;
    assert Without(l, c) == a by {
      WithoutConcat([c], a, c);
      WithoutChar(c, c);
      WithoutAbsent(a, c);
      assert [] + a == a;
    }
    WithoutConcat(l, [c], c);
    WithoutChar(c, c);
    assert a + [] == a;
  }

  /** Removing c from a + c + b, where neither part holds c, leaves a + b. */
  lemma DropBetween(a: string, b: string, c: char)
    requires c !in a && c !in b
    ensures Without(a + [c] + b, c) == a + b
  {
    var l := a + [c];
    assert Without(l, c) == a by {
      WithoutConcat(a, [c], c);
      WithoutChar(c, c);
      WithoutAbsent(a, c);
      assert a + [] == a;
    }
    WithoutConcat(l, b, c);
    WithoutAbsent(b, c);
  }
}

=== FILE: string_order.dfy ===
/** Python's ordering of str values (code point by code point, a proper prefix
    first) and sorted() over a set of strings, as used to list the month keys. */
module StringOrder {

  /** a < b on Python strings. */
  predicate Less(a: string, b: string) {
    if a == [] then b != []
    else if b == [] then false
    else if a[0] != b[0] then a[0] < b[0]
    else Less(a[1..], b[1..])
  }

  lemma {:induction false} LessIrreflexive(a: string)
    ensures !Less(a, a)
  {
    if a != [] {
      LessIrreflexive(a[1..]);
    }
  }

  lemma {:induction false} LessTransitive(a: string, b: string, c: string)
    requires Less(a, b) && Less(b, c)
    ensures Less(a, c)
  {
    if a != [] && a[0] == b[0] && b[0] == c[0] {
      LessTransitive(a[1..], b[1..], c[1..]);
    }
  }

  lemma {:induction false} LessTotal(a: string, b: string)
    requires a != b
    ensures Less(a, b) || Less(b, a)
  {
    if a != [] && b != [] && a[0] == b[0] {
      assert a == [a[0]] + a[1..] && b == [b[0]] + b[1..];
      LessTotal(a[1..], b[1..]);
    }
  }

  /** Strictly increasing, hence without repetitions. */
  predicate Ascending(ks: seq<string>) {
    forall i, j :: 0 <= i < j < |ks| ==> Less(ks[i], ks[j])
  }

  predicate Distinct(ks: seq<string>) {
    forall i, j :: 0 <= i < j < |ks| ==> ks[i] != ks[j]
  }

  lemma AscendingDistinct(ks: seq<string>)
    requires Ascending(ks)
    ensures Distinct(ks)
  {
    forall i, j | 0 <= i < j < |ks| ensures ks[i] != ks[j] {
      LessIrreflexive(ks[i]);
    }
  }

  /** In an ascending list, a smaller string sits at a smaller position. */
  lemma AscendingIndex(ks: seq<string>, i: nat, j: nat)
    requires Ascending(ks) && i < |ks| && j < |ks|
    requires Less(ks[i], ks[j])
    ensures i < j
  {
    LessIrreflexive(ks[i]);
    if j < i {
      LessTransitive(ks[i], ks[j], ks[i]);
    }
  }

  /** The smallest string of a non-empty set. */
  method Least(s: set<string>) returns (m: string)
    requires s != {}
    ensures m in s
    ensures forall x :: x in s && x != m ==> Less(m, x)
  {
    m :| m in s;
    var rest := s - {m};
    while rest != {}
      invariant m in s && rest <= s
      invariant forall x :: x in s && x !in rest && x != m ==> Less(m, x)
      decreases rest
    {
      var x :| x in rest;
      if Less(x, m) {
        forall y | y in s && y !in rest && y != x
          ensures Less(x, y)
        {
          if y != m {
            LessTransitive(x, m, y);
          }
        }
        m := x;
      } else if x != m {
        LessTotal(x, m);
      }
      rest := rest - {x};
    }
  }

  /** sorted(keys): the members of the set in ascending order. */
  method Sorted(keys: set<string>) returns (ks: seq<string>)
    ensures Ascending(ks)
    ensures forall k :: k in ks <==> k in keys
  {
    ks := [];
    var rest := keys;
    while rest != {}
      invariant rest <= keys
      invariant forall k :: k in keys <==> k in rest || k in ks
      invariant forall k :: k in ks ==> k !in rest
      invariant Ascending(ks)
      invariant forall i, x :: 0 <= i < |ks| && x in rest ==> Less(ks[i], x)
      decreases rest
    {
      var m := Least(rest);
      ks := ks + [m];
      rest := rest - {m};
    }
  }
}
